=== FILE: README.md ===
# BoTesh chat pipeline — a verified model

BoTesh is a chat assistant. The server in backend/src/index.ts exposes one endpoint, `POST /chat`,
which takes a message and a session id and routes the message by intent:

- **Greetings** get a friendly reply from a language model.
- **News requests** get a markdown digest of live headlines.
- **Everything else** takes the general path:
  1. the query is rewritten by the model;
  2. the web (Brave) and Wikipedia are searched, and the results are merged and de-duplicated;
  3. the session's recent turns are fetched;
  4. a budget-limited source context is built;
  5. the model answers from a grounded prompt.

Two providers are tried in turn, Gemini and then Cohere, before a fixed "limit reached" message. Plain URLs in a provider's answer become markdown links; the news digest is returned as built. Every answer is stored as a turn of the session.

This project models that pipeline in Dafny. Each piece of the outside world is a parameter:

- the model providers;
- the search APIs;
- the news API;
- the conversation table;
- `encodeURIComponent`;
- `toLocaleString`.

What remains is the pipeline's deterministic logic, and the project proves properties of it.

Modules, one per component:

- `Wrappers`: `Option` and `Result`.
- `Seqs`: the clamped end of `slice(0, n)` and subsequences (what a filter or a deletion keeps, in order).
- `JsText`: the JavaScript string built-ins the code relies on, each written out:
  - `trim`, and the `\s` class;
  - the `.` class, which stops at line terminators;
  - the `i` flag, which is ASCII case folding for these ASCII-only patterns;
  - `join`, and `split('\n')` for reading a rendered block back as lines;
  - UTF-16 `length`;
  - the decimal rendering of numbers.
- `Sources`: the two search connectors, `multiSourceSearch` (a loop over a growing `seen` set) and `getTopSources` (a loop with a running total and a `break`).
- `Rewrite`: `rephraseQuery` and its `Rephrased:` parsing.
- `History`: `getConversationHistory` and the rendering of the history block.
- `AutoLink`: `autoLinkUrls`.
- `Intent`: the chit-chat and news routing tests, and `getFollowUpSuggestions`.
- `Providers`: the Gemini → Cohere → limit-message chain, then the default text.
- `NewsResolver`: `getLiveNews` payload mapping and `formatNews` (a loop that appends to `msg`).
- `Chat`: the `/chat` handler, as a specification function and as a method that follows the handler step by step.

## Model

| member | source | states |
|---|---|---|
| `Sources.SearchWeb` | backend/src/index.ts:54-76 | a failed request, or a payload without `web.results`, gives the empty list; otherwise the results as sent |
| `Sources.SearchWikipedia` | backend/src/index.ts:79-94 | the empty list on failure; otherwise one result per hit, in order, titled by the hit, with the snippet's tags stripped and the URL built from the title |
| `Sources.WikiUrl` | backend/src/index.ts:88 | the article URL is the wiki base followed by the encoded title with spaces turned to underscores |
| `Sources.SpacesToUnderscores` | backend/src/index.ts:88 | same length; every space becomes `_` and every other character is kept |
| `Sources.StripTagsLeavesNoTag` | backend/src/index.ts:87 | after stripping, `<[^>]+>` matches nowhere in the snippet |
| `Sources.StripTagsChars` | backend/src/index.ts:87 | every character of the stripped snippet occurs in the snippet |
| `Sources.StripTagsSubsequence` | backend/src/index.ts:87 | the stripped snippet is a subsequence of the original: characters are deleted, never added or reordered |
| `Sources.StripTagsWithoutTag` | backend/src/index.ts:87 | a snippet where `<[^>]+>` matches nowhere (such as `1 < 2`) is unchanged |
| `Sources.StripTagsIdempotent` | backend/src/index.ts:87 | stripping twice gives the same as stripping once |
| `Sources.StripTagsPlain` | backend/src/index.ts:87 | a snippet without `<` is unchanged |
| `Sources.MultiSourceSearch` | backend/src/index.ts:97-111 | the loop over web-then-Wikipedia results with a `seen` set yields pairwise-distinct URLs, covers every URL of the input, is a subsequence of the concatenation, and is empty for two empty inputs |
| `Sources.DedupDistinct` | backend/src/index.ts:103-109 | the de-duplicated list has pairwise-distinct URLs |
| `Sources.DedupUrls` | backend/src/index.ts:103-109 | its URLs are exactly the input's URLs not already seen |
| `Sources.DedupOrder` | backend/src/index.ts:103-109 | it is a subsequence of the input: relative order is kept |
| `Sources.DedupKeepsFirst` | backend/src/index.ts:105-108 | every kept result is the first input result with its URL |
| `Sources.WebResultWins` | backend/src/index.ts:103-109 | a web result beats a Wikipedia result with the same URL |
| `Sources.GetTopSources` | backend/src/index.ts:130-141 | the loop with its running total and `break` joins exactly the admitted chunks with blank lines, and gives "" for no results |
| `Sources.TopChunksSpec` | backend/src/index.ts:130-141 | the chunks are those of a prefix of the results, at most `maxSources` long; their summed lengths stay within `maxChars`; the prefix stops at the first chunk that would overflow, with no skipping |
| `Sources.ContextLength` | backend/src/index.ts:136-140 | the joined context can exceed `maxChars` only by the uncounted separators |
| `Rewrite.RephrasePrompt` | backend/src/index.ts:116 | the instruction contains the user's query |
| `Rewrite.FindMarker` | backend/src/index.ts:121 | finds the leftmost position where `Rephrased:` starts, in any case, or reports that there is none |
| `Rewrite.LineEnd` | backend/src/index.ts:121 | `.*` stops at the first line terminator or at the end |
| `Rewrite.ParseFirstMarkerLine` | backend/src/index.ts:121-122 | with a marker in any case, the rewrite is the rest of that line after the first marker, trimmed, whatever follows the line break |
| `Rewrite.ParseWithoutMarker` | backend/src/index.ts:122 | without a marker, the rewrite is the whole reply, trimmed |
| `Rewrite.ParsedLineHasNoBreak` | backend/src/index.ts:121-122 | with a marker, the rewrite contains no line terminator |
| `Rewrite.RephraseRoundTrip` | backend/src/index.ts:114-122 | a reply `Rephrased: x` yields `x` for a trimmed single-line `x` |
| `Rewrite.RephraseFailureKeepsQuery` | backend/src/index.ts:123-126 | a failing provider call leaves the user's query unchanged |
| `History.GetConversationHistory` | backend/src/index.ts:147-159 | a failed query gives `[]`; there are never more than `n` turns |
| `History.HistoryIsRecentSuffix` | backend/src/index.ts:148-158 | the history is the session's last `min(n, k)` turns, oldest first |
| `History.StoredTurnIsNewest` | backend/src/index.ts:147-169 | a turn just stored is the newest turn of its session's next history |
| `History.OtherSessionsIgnored` | backend/src/index.ts:151 | rows of other sessions never reach a session's history |
| `History.SessionRows` | backend/src/index.ts:151 | exactly the session's rows: every row of the session, as many times as the table holds it, and no other row |
| `History.SessionRowsInOrder` | backend/src/index.ts:151 | the session's rows keep the table's order (a subsequence of the table) |
| `History.RenderTurn` | backend/src/index.ts:257 | a rendered turn opens with `User: ` |
| `History.RenderTurnLines` | backend/src/index.ts:257 | with single-line texts, a rendered turn splits into exactly `User: <user>` and `Bot: <bot>` |
| `History.TurnLinesAt` | backend/src/index.ts:257 | line 2i of the expected lines is turn i's user text, line 2i+1 its bot text |
| `History.HistoryBlockLines` | backend/src/index.ts:257 | with single-line texts, the history block splits into each turn's user line then bot line, oldest first |
| `History.HistoryBlockBreaks` | backend/src/index.ts:257 | with single-line texts, k turns render as exactly 2k lines |
| `AutoLink.AutoLinkNeverShortens` | backend/src/index.ts:172-175 | linking never shortens a text |
| `AutoLink.AutoLinkWithoutScheme` | backend/src/index.ts:174 | a text without `http://` or `https://` is returned unchanged |
| `AutoLink.AutoLinkWithoutColon` | backend/src/index.ts:174 | in particular, a text without a colon is unchanged |
| `AutoLink.AutoLinkSplitsAtSpace` | backend/src/index.ts:174 | the transformation works word by word: whitespace is kept and no link crosses it |
| `AutoLink.AutoLinkWord` | backend/src/index.ts:174 | inside a word, the first match starts a link that runs to the end of the word; the text before it is kept |
| `AutoLink.AutoLinkBetweenWords` | backend/src/index.ts:174 | a URL between two colon-free words becomes `[u](u)`, and nothing else changes |
| `AutoLink.AutoLinkNotIdempotent` | backend/src/index.ts:174 | a second pass wraps the `u](u)` inside an existing link again, so the function is not idempotent |
| `Intent.RouteOf` | backend/src/index.ts:204-234 | chit-chat exactly when the greeting test holds; news exactly when it fails and the news test holds; general otherwise |
| `Intent.RouteIgnoresCase` | backend/src/index.ts:204-205 | routing is case-insensitive |
| `Intent.RouteIgnoresLeadingSpace` | backend/src/index.ts:205 | leading whitespace does not affect routing |
| `Intent.GreetingPrefixIsChitChat` | backend/src/index.ts:204-205 | any text after a greeting is still chit-chat, since no word boundary is required |
| `Intent.HistoryIsChitChat` | backend/src/index.ts:204 | "history of Rome" is chit-chat |
| `Intent.YogaIsChitChat` | backend/src/index.ts:204 | "yoga" is chit-chat |
| `Intent.NotChitChatByInitial` | backend/src/index.ts:204 | a message that starts with none of the greetings' initial letters is not chit-chat |
| `Intent.HeaIsNotChitChat` | backend/src/index.ts:204 | a message opening with "hea" (as in "headlines") is not chit-chat: "he" must continue with "llo" or "y" |
| `Intent.GreetingBeforeNews` | backend/src/index.ts:204-234 | a greeting followed by a headline phrase is routed as chit-chat, since the greeting test comes first |
| `Intent.NewsPhraseRoutesToNews` | backend/src/index.ts:233-234 | a headline phrase anywhere in a non-greeting routes to news |
| `Intent.LeadingPhraseIsNews` | backend/src/index.ts:233-234 | a message opening with any of the headline phrases is news, whatever follows |
| `Intent.BreakingNewsIsNews` | backend/src/index.ts:233 | "breaking news on elections" is news |
| `Intent.FollowUpSuggestions` | backend/src/index.ts:178-195 | the cricket suggestions when the query mentions cricket or IPL; otherwise the web suggestions when it mentions JS, JavaScript or web; otherwise the generic pair |
| `Intent.SuggestionsIgnoreCase` | backend/src/index.ts:179-186 | the topic tests ignore case |
| `Intent.IplAnywhereGivesCricket` | backend/src/index.ts:179-184 | "ipl" anywhere, with no word boundary, gives the cricket suggestions |
| `Providers.Chain` | backend/src/index.ts:207-226 | a primary answer is used as is; after a primary failure, the secondary's answer; after two failures, the limit message |
| `Providers.OrDefault` | backend/src/index.ts:227 | a null, undefined or empty reply becomes the default text |
| `Providers.Generate` | backend/src/index.ts:207-227 | the nested try/catch: the response is the auto-linked chain result or default; the secondary is consulted exactly when the primary throws; the response is non-empty when the default is |
| `Providers.PrimaryWins` | backend/src/index.ts:209-213 | when the primary answers, the secondary makes no difference |
| `Providers.SecondaryAfterFailure` | backend/src/index.ts:214-222 | after a primary failure, the secondary's text is used |
| `Providers.BothFailedGivesLimit` | backend/src/index.ts:223-227 | two failures give exactly "Limit reached. Please try again later after some time." |
| `Providers.EmptyReplyGivesDefault` | backend/src/index.ts:227 | a missing or empty reply gives the default text, unchanged when it has no colon |
| `Providers.EmptyPrimaryIsNotAFailure` | backend/src/index.ts:209-227 | an empty primary reply does not consult the secondary; the default replaces it |
| `Providers.FinalTextNonEmpty` | backend/src/index.ts:227 | with a non-empty default, the reply is never empty |
| `NewsResolver.GetLiveNews` | backend/src/newsResolver.ts:8-23 | a failed fetch propagates as an error; a payload without `articles` gives `[]`; otherwise the mapping keeps count and order, and takes `source.name` |
| `NewsResolver.FormatNews` | backend/src/newsResolver.ts:25-36 | the appending loop builds exactly the digest: the heading, then one block per article |
| `NewsResolver.Blocks` | backend/src/newsResolver.ts:27-34 | one block per article, numbered from 1 in input order, with no cap |
| `NewsResolver.DigestHeading` | backend/src/newsResolver.ts:26-35 | the digest opens with the heading, and is exactly the heading for no articles |
| `NewsResolver.DigestAppend` | backend/src/newsResolver.ts:27-34 | appending an article appends exactly its block, numbered one past the others |
| `NewsResolver.DigestEndsWithSeparator` | backend/src/newsResolver.ts:33 | every non-empty digest ends with `\n---\n\n` |
| `NewsResolver.SourceLinkWhenBothPresent` | backend/src/newsResolver.ts:29-30 | the source link follows the title line exactly when both source and URL are non-empty |
| `NewsResolver.TimestampWhenPublished` | backend/src/newsResolver.ts:32 | the timestamp segment is present exactly when `publishedAt` is non-empty; otherwise the separator follows directly |
| `NewsResolver.BlockNumbering` | backend/src/newsResolver.ts:28 | article `i` is titled `**i+1. [title](url)**`, and its number reads back as `i+1` |
| `Chat.ChatOutcomeOf` | backend/src/index.ts:197-288 | a missing or empty message or session id gives a 400 with nothing stored; any answer is stored with exactly the returned text |
| `Chat.Respond` | backend/src/index.ts:203-283 | a valid request is never a 400; an answer and a stored turn go together, with the same text |
| `Chat.HandleChat` | backend/src/index.ts:197-288 | the handler, validation to storage, produces the specified outcome on every path |
| `Chat.AnswerNews` | backend/src/index.ts:234-247 | the news branch gives the digest, the apology for no articles, or a 500 |
| `Chat.AnswerGeneral` | backend/src/index.ts:248-283 | the general branch: rewrite, search, history, context, prompt, provider chain |
| `Chat.ChitChatProvidersDown` | backend/src/index.ts:207-230 | a greeting with both providers down is answered and stored as the limit message |
| `Chat.ChitChatEmptyReply` | backend/src/index.ts:207-227 | when the chain's greeting reply is missing or empty (from either provider), the answer is "Hello!" |
| `Chat.GeneralEmptyReply` | backend/src/index.ts:280 | an empty general answer becomes the apology text |
| `Chat.GeneralProvidersDown` | backend/src/index.ts:259-283 | a general question with both providers down is answered with the limit message |
| `Chat.NewsFetchFailure` | backend/src/index.ts:234-287 | a failed news fetch is a 500 and nothing is stored |
| `Chat.NewsWithoutArticles` | backend/src/index.ts:241-245 | a news payload without articles is answered and stored as the fixed apology |
| `Chat.NewsAnswerIsDigest` | backend/src/index.ts:236-239 | a news answer with articles is exactly the digest of the fetched articles, which opens with the heading |
| `Chat.ChitChatIgnoresSearchAndNews` | backend/src/index.ts:205-231 | a greeting's answer depends only on the providers' answers to the greeting prompt |
| `Chat.AnswerNonEmpty` | backend/src/index.ts:227-280 | every answer is non-empty |
| `Chat.PromptHoldsItsParts` | backend/src/index.ts:258 | the grounded prompt contains the message, the history block and the source context |
| `Chat.EmptyRewriteShowsMessage` | backend/src/index.ts:258 | an empty rewrite puts the message in the rewritten-query slot |

## Left out

- The network, SDK and database calls are parameters of the model:
  - the Gemini and Cohere calls;
  - the Brave, Wikipedia and NewsAPI requests;
  - the Supabase queries and inserts.

  Each is summed up by its outcome: a thrown error, a returned value, or rows. The query string and `encodeURIComponent` inside the request URLs are part of those parameters.
- `encodeURIComponent` in the Wikipedia article URL, and `new Date(…).toLocaleString()` in the news digest, are opaque functions.
- Provider choice is not modelled: the model names, temperatures and token limits of the provider calls. A provider is a function from prompt to outcome.
- Startup plumbing is not modelled: the startup listing of Gemini models (backend/src/index.ts:29-46), the express and CORS setup, `app.listen`, logging, and the HTTP response objects. A reply is a value `Answer`, `BadRequest` or `ServerError`.
- `Promise.all` in `multiSourceSearch` is modelled as two sequential calls. Both connectors catch their own errors, so the order cannot be observed.
- Creation time is not a field of a stored row. The conversation table is a sequence in insertion order, so "newest first" means "latest in the sequence".
- `storeConversationTurn` failures are only logged by the source. The model records the attempted insert in `stored` and does not model the table's state afterwards.
- `History.GetConversationHistory`: a successful Supabase reply with `data` null (turned into `[]` by `data || []`) is not distinguished from an empty table.
- The request body is modelled only in part:
  - a missing field is `None` and an empty one `Some("")`, and both give the 400;
  - a `message` that is present but not a string (a number, say) is not modelled: only `message` is trimmed (backend/src/index.ts:205), and that `trim()` would throw, giving a 500;
  - a `session_id` that is present but not a string is not modelled either: it is never trimmed, so the source passes it on to the history query and the insert.
- Malformed search and news payloads are not modelled:
  - a Wikipedia hit without `snippet`, which makes `searchWikipedia` return `[]`;
  - a news article whose `source` is null, which makes `getLiveNews` throw and the handler answer 500.

  A Brave result missing a field is mapped with `undefined` fields in the source, and the model gives every result all three strings.
- `JsText.Lower`: only ASCII letters are folded. That is exactly what the `i` flag does for these ASCII-only patterns, since a non-Unicode JavaScript expression never folds a non-ASCII character onto an ASCII one. It is not a general `toLowerCase`.
- `getFollowUpSuggestions` is defined in the source but not called by the handler. It is modelled on its own.
- Other source files are not part of this model: the frontend (`frontend/src/App.tsx`), the scraper (`backend/src/scraper.ts`), and the alternative handler and upload endpoint (`backend/src/app.ts`, `backend/src/controllers/chatController.ts`).

=== FILE: AutoLink.dfy ===
/**
 * The response postprocessor autoLinkUrls: `text.replace(/(https?:\/\/\S+)/g, '[$1]($1)')`.
 * The scan goes left to right; where `http://` or `https://` is followed by at
 * least one non-whitespace character, the whole run up to the next whitespace
 * (or the end) is wrapped as `[run](run)` and the scan resumes after it.
 */
module AutoLink {
  import opened JsText

  /** The regular expression matches at the start of `s`. Case matters: the expression has no `i` flag. */
  predicate UrlHere(s: string) {
    (StartsWith(s, "http://") && 7 < |s| && !IsSpace(s[7])) ||
    (StartsWith(s, "https://") && 8 < |s| && !IsSpace(s[8]))
  }

  /** The length of the leading run of non-whitespace characters: what `\S+` consumes. */
  function RunLength(s: string): (n: nat)
    ensures n <= |s|
    ensures n < |s| ==> IsSpace(s[n])
    ensures forall i :: 0 <= i < n ==> !IsSpace(s[i])
    decreases |s|
  {
    if s == [] || IsSpace(s[0]) then 0 else 1 + RunLength(s[1..])
  }

  /** The replacement `[$1]($1)`. */
  function Link(u: string): string {
    "[" + u + "](" + u + ")"
  }

  function AutoLinkUrls(s: string): string
    decreases |s|
  {
    if s == [] then []
    else if UrlHere(s) then
      assert !IsSpace(s[0]);
      var n := RunLength(s);
      Link(s[..n]) + AutoLinkUrls(s[n..])
    else [s[0]] + AutoLinkUrls(s[1..])
  }

  /** Linking never shortens a text, so a non-empty reply stays non-empty. */
  lemma {:induction false} AutoLinkNeverShortens(s: string)
    ensures |AutoLinkUrls(s)| >= |s|
    decreases |s|
  {
    if s != [] {
      if UrlHere(s) {
        AutoLinkNeverShortens(s[RunLength(s)..]);
      } else {
        AutoLinkNeverShortens(s[1..]);
      }
    }
  }

  /** Where the expression matches nowhere, the text comes back unchanged. */
  lemma {:induction false} AutoLinkWithoutMatch(s: string)
    requires forall i :: 0 <= i < |s| ==> !UrlHere(s[i..])
    ensures AutoLinkUrls(s) == s
    decreases |s|
  {
    if s != [] {
      assert !UrlHere(s[0..]) && s[0..] == s;
      forall i | 0 <= i < |s[1..]| ensures !UrlHere(s[1..][i..]) {
        assert s[1..][i..] == s[i + 1..];
      }
      AutoLinkWithoutMatch(s[1..]);
    }
  }

  /** A text in which neither `http://` nor `https://` occurs is returned unchanged. */
  lemma AutoLinkWithoutScheme(s: string)
    requires !Contains(s, "http://") && !Contains(s, "https://")
    ensures AutoLinkUrls(s) == s
  {
    forall i | 0 <= i < |s| ensures !UrlHere(s[i..]) {
      if StartsWith(s[i..], "http://") {
        ContainsAt(s, i, "http://");
      }
      if StartsWith(s[i..], "https://") {
        ContainsAt(s, i, "https://");
      }
    }
    AutoLinkWithoutMatch(s);
  }

  /** In particular, any text without a colon is returned unchanged. */
  lemma AutoLinkWithoutColon(s: string)
    requires ':' !in s
    ensures AutoLinkUrls(s) == s
  {
    assert "http://"[4] == ':' && "https://"[5] == ':';
    ContainsNeedsChar(s, "http://", ':');
    ContainsNeedsChar(s, "https://", ':');
    AutoLinkWithoutScheme(s);
  }

  /** Whether the expression matches at the start does not depend on what follows a whitespace character. */
  lemma UrlHereBeforeSpace(a: string, c: char, b: string)
    requires a != [] && IsSpace(c)
    ensures UrlHere(a + [c] + b) == UrlHere(a)
  {
    var s := a + [c] + b;
    assert s[|a|] == c;
    if |a| >= 8 {
      assert s[..8] == a[..8] && s[..7] == a[..7] && s[7] == a[7];
      if |a| > 8 {
        assert s[8] == a[8];
      }
    } else {
      VisibleIsNotSpace("https://");
      VisibleIsNotSpace("http://");
      assert !StartsWith(s, "https://") by {
        if |s| >= 8 {
          assert s[..8][|a|] == c;
        }
      }
      if |a| < 7 {
        assert !StartsWith(s, "http://") by {
          if |s| >= 7 {
            assert s[..7][|a|] == c;
          }
        }
      }
    }
  }

  /** One step of the scan over `a + [c] + b` when a URL starts at the front of `a`. */
  lemma UrlStepBeforeSpace(a: string, c: char, b: string)
    requires IsSpace(c) && a != [] && UrlHere(a)
    ensures var n := RunLength(a);
      0 < n <= |a| &&
      AutoLinkUrls(a + [c] + b) == Link(a[..n]) + AutoLinkUrls(a[n..] + [c] + b)
  {
    var s := a + [c] + b;
    var n := RunLength(a);
    UrlHereBeforeSpace(a, c, b);
    RunLengthPrefix(a, c, b);
    assert s[..n] == a[..n];
    assert s[n..] == a[n..] + [c] + b;
  }

  /** One step of the scan over `a + [c] + b` when no URL starts at the front of `a`. */
  lemma PlainStepBeforeSpace(a: string, c: char, b: string)
    requires IsSpace(c) && a != [] && !UrlHere(a)
    ensures AutoLinkUrls(a + [c] + b) == [a[0]] + AutoLinkUrls(a[1..] + [c] + b)
  {
    var s := a + [c] + b;
    UrlHereBeforeSpace(a, c, b);
    assert s[0] == a[0];
    assert s[1..] == a[1..] + [c] + b;
  }

  /** A whitespace character is copied and the scan moves on. */
  lemma SpaceStep(c: char, b: string)
    requires IsSpace(c)
    ensures AutoLinkUrls([c] + b) == [c] + AutoLinkUrls(b)
  {
    var s := [c] + b;
    assert s[0] == c && s[1..] == b;
    VisibleIsNotSpace("http://");
    VisibleIsNotSpace("https://");
    assert !StartsWith(s, "http://") by {
      if |s| >= 7 {
        assert s[..7][0] == c;
      }
    }
    assert !StartsWith(s, "https://") by {
      if |s| >= 8 {
        assert s[..8][0] == c;
      }
    }
  }

  /** The inductive step of `AutoLinkSplitsAtSpace` when a URL starts at the front of `a`. */
  lemma UrlSplitStep(a: string, c: char, b: string)
    requires IsSpace(c) && a != [] && UrlHere(a)
    requires var n := RunLength(a);
      AutoLinkUrls(a[n..] + [c] + b) == AutoLinkUrls(a[n..]) + [c] + AutoLinkUrls(b)
    ensures AutoLinkUrls(a + [c] + b) == AutoLinkUrls(a) + [c] + AutoLinkUrls(b)
  {
    var n := RunLength(a);
    UrlStepBeforeSpace(a, c, b);
    var link, rest, tail := Link(a[..n]), AutoLinkUrls(a[n..]), AutoLinkUrls(b);
    assert AutoLinkUrls(a) == link + rest;
    Regroup(link, rest, [c], tail);
  }

  /** The inductive step of `AutoLinkSplitsAtSpace` when no URL starts at the front of `a`. */
  lemma PlainSplitStep(a: string, c: char, b: string)
    requires IsSpace(c) && a != [] && !UrlHere(a)
    requires AutoLinkUrls(a[1..] + [c] + b) == AutoLinkUrls(a[1..]) + [c] + AutoLinkUrls(b)
    ensures AutoLinkUrls(a + [c] + b) == AutoLinkUrls(a) + [c] + AutoLinkUrls(b)
  {
    PlainStepBeforeSpace(a, c, b);
    var rest, tail := AutoLinkUrls(a[1..]), AutoLinkUrls(b);
    assert AutoLinkUrls(a) == [a[0]] + rest;
    Regroup([a[0]], rest, [c], tail);
  }

  /** The transformation works word by word: whitespace is kept and no link crosses it. */
  lemma {:induction false} AutoLinkSplitsAtSpace(a: string, c: char, b: string)
    requires IsSpace(c)
    ensures AutoLinkUrls(a + [c] + b) == AutoLinkUrls(a) + [c] + AutoLinkUrls(b)
    decreases |a|
  {
    if a == [] {
      SpaceStep(c, b);
      assert a + [c] + b == [c] + b;
    } else if UrlHere(a) {
      UrlStepBeforeSpace(a, c, b);
      AutoLinkSplitsAtSpace(a[RunLength(a)..], c, b);
      UrlSplitStep(a, c, b);
    } else {
      AutoLinkSplitsAtSpace(a[1..], c, b);
      PlainSplitStep(a, c, b);
    }
  }

  lemma {:induction false} RunLengthPrefix(a: string, c: char, b: string)
    requires IsSpace(c)
    ensures RunLength(a + [c] + b) == RunLength(a)
    decreases |a|
  {
    var s := a + [c] + b;
    if a == [] {
      assert s[0] == c;
    } else {
      assert s[0] == a[0];
      assert s[1..] == a[1..] + [c] + b;
      RunLengthPrefix(a[1..], c, b);
    }
  }

  /** Where the expression does not match, the first character is copied. */
  lemma PlainStep(s: string)
    requires s != [] && !UrlHere(s)
    ensures AutoLinkUrls(s) == [s[0]] + AutoLinkUrls(s[1..])
  {
  }

  /** Inside one word, the first place the expression matches starts a link that
      runs to the end of the word; what precedes it is unchanged. */
  lemma {:induction false} AutoLinkWord(w: string, p: nat)
    requires forall i :: 0 <= i < |w| ==> !IsSpace(w[i])
    requires p < |w| && UrlHere(w[p..])
    requires forall i :: 0 <= i < p ==> !UrlHere(w[i..])
    ensures AutoLinkUrls(w) == w[..p] + Link(w[p..])
    decreases p
  {
    if p == 0 {
      assert w[0..] == w && w[..0] == [];
      LinkWholeWord(w);
    } else {
      var t := w[1..];
      assert w[0..] == w;
      PlainStep(w);
      forall i | 0 <= i < p - 1 ensures !UrlHere(t[i..]) {
        assert t[i..] == w[i + 1..];
      }
      assert t[p - 1..] == w[p..];
      AutoLinkWord(t, p - 1);
      assert w[..p] == [w[0]] + t[..p - 1];
      Assoc([w[0]], t[..p - 1], Link(w[p..]));
    }
  }

  /** A URL standing alone as a word becomes exactly one link. */
  lemma {:induction false} LinkWholeWord(w: string)
    requires forall i :: 0 <= i < |w| ==> !IsSpace(w[i])
    requires UrlHere(w)
    ensures AutoLinkUrls(w) == Link(w)
  {
    assert RunLength(w) == |w|;
    assert w[..|w|] == w && w[|w|..] == [];
    assert AutoLinkUrls(w) == Link(w) + AutoLinkUrls([]);
  }

  lemma NoSpaceConcat(a: string, b: string)
    requires forall i :: 0 <= i < |a| ==> !IsSpace(a[i])
    requires forall i :: 0 <= i < |b| ==> !IsSpace(b[i])
    ensures forall i :: 0 <= i < |a + b| ==> !IsSpace((a + b)[i])
  {
    forall i | 0 <= i < |a + b| ensures !IsSpace((a + b)[i]) {
      if i < |a| {
        assert (a + b)[i] == a[i];
      } else {
        assert (a + b)[i] == b[i - |a|];
      }
    }
  }

  lemma BracketIsNoUrl(v: string)
    ensures !UrlHere("[" + v)
  {
    var w := "[" + v;
    assert w[0] == '[';
    if |w| >= 7 {
      assert w[..7][0] == '[';
    }
    if |w| >= 8 {
      assert w[..8][0] == '[';
    }
  }

  /** After an opening bracket, a URL word is still linked in full. */
  lemma LinkAfterBracket(v: string)
    requires forall i :: 0 <= i < |v| ==> !IsSpace(v[i])
    requires UrlHere(v)
    ensures AutoLinkUrls("[" + v) == "[" + Link(v)
  {
    var w := "[" + v;
    BracketIsNoUrl(v);
    assert w[1..] == v;
    assert AutoLinkUrls(w) == [w[0]] + AutoLinkUrls(v);
    LinkWholeWord(v);
  }

  /** The text after the bracket of a link, `u](u)`, is again a URL word. */
  lemma LinkTailIsUrlWord(w: string)
    requires forall i :: 0 <= i < |w| ==> !IsSpace(w[i])
    requires UrlHere(w)
    ensures var v := w + "](" + w + ")";
      UrlHere(v) && forall i :: 0 <= i < |v| ==> !IsSpace(v[i])
  {
    var v := w + "](" + w + ")";
    VisibleIsNotSpace("](");
    VisibleIsNotSpace(")");
    NoSpaceConcat(w, "](");
    NoSpaceConcat(w + "](", w);
    NoSpaceConcat(w + "](" + w, ")");
    assert v[..|w|] == w;
    if StartsWith(w, "http://") && 7 < |w| {
      assert v[..7] == w[..7] && v[7] == w[7];
    } else {
      assert v[..8] == w[..8] && v[8] == w[8];
    }
  }

  /** A link regrouped behind its opening bracket. Like the other regrouping
      helpers, it is stated once and called by name so that the callers' proofs
      stay small for the solver. */
  lemma LinkAfterOpen(u: string)
    ensures Link(u) == "[" + (u + "](" + u + ")")
  {
  }

  /** Wrapping is not idempotent: the link `[u](u)` still holds the bare
      URL, so a second pass wraps `u](u)` again. */
  lemma AutoLinkNotIdempotent(w: string)
    requires forall i :: 0 <= i < |w| ==> !IsSpace(w[i])
    requires UrlHere(w)
    ensures AutoLinkUrls(w) == Link(w)
    ensures AutoLinkUrls(AutoLinkUrls(w)) == "[" + Link(w + "](" + w + ")")
    ensures AutoLinkUrls(AutoLinkUrls(w)) != AutoLinkUrls(w)
  {
    var v := w + "](" + w + ")";
    var once := Link(w);
    LinkWholeWord(w);
    LinkAfterOpen(w);
    LinkTailIsUrlWord(w);
    LinkAfterBracket(v);
    var twice := "[" + Link(v);
    assert |twice| == 2 * |v| + 5 && |once| == |v| + 1;
  }

  /** Three words joined by single spaces, grouped from the right (a regrouping
      helper, called by name to keep the caller's proof small). */
  lemma SpacedWords(x: string, y: string, z: string)
    ensures x + " " + y + " " + z == x + [' '] + (y + [' '] + z)
  {
  }

  /** A URL followed by a space and a word without a colon: only the URL is linked. */
  lemma LinkThenWord(url: string, after: string)
    requires ':' !in after
    requires forall i :: 0 <= i < |url| ==> !IsSpace(url[i])
    requires UrlHere(url)
    ensures AutoLinkUrls(url + [' '] + after) == Link(url) + [' '] + after
  {
    AutoLinkSplitsAtSpace(url, ' ', after);
    AutoLinkWithoutColon(after);
    LinkWholeWord(url);
  }

  /** A URL between two words without a colon is linked and nothing else changes. */
  lemma AutoLinkBetweenWords(before: string, url: string, after: string)
    requires ':' !in before && ':' !in after
    requires forall i :: 0 <= i < |url| ==> !IsSpace(url[i])
    requires UrlHere(url)
    ensures AutoLinkUrls(before + " " + url + " " + after) == before + " " + Link(url) + " " + after
  {
    SpacedWords(before, url, after);
    SpacedWords(before, Link(url), after);
    AutoLinkSplitsAtSpace(before, ' ', url + [' '] + after);
    AutoLinkWithoutColon(before);
    LinkThenWord(url, after);
  }
}

=== FILE: Chat.dfy ===
/**
 * The `POST /chat` handler. A request with a message and a session id is
 * routed by intent:
 *   chit-chat  a greeting reply from the provider chain (default "Hello!");
 *   news       the live-news digest, or a fixed apology when there are no articles;
 *   general    rewrite the query, search the web and Wikipedia, fetch the
 *              session history, build the grounded prompt and ask the provider
 *              chain (default: an apology).
 * Every answer is stored as a turn of the session, with the same text that is
 * returned. The outside world (the providers, the search APIs, the news API,
 * the conversation table, `encodeURIComponent` and `toLocaleString`) is an
 * `Env` of functions and values.
 */
module Chat {
  import opened Wrappers
  import opened JsText
  import opened AutoLink
  import opened Providers
  import opened Sources
  import opened Intent
  import opened Rewrite
  import opened History
  import opened NewsResolver

  datatype Env = Env(
    gemini: string -> Attempt,
    cohere: string -> Attempt,
    braveSearch: string -> Result<Option<seq<SearchResult>>>,
    wikiSearch: string -> Result<Option<seq<WikiHit>>>,
    newsFeed: string -> Result<NewsPayload>,
    conversations: Result<seq<StoredTurn>>,
    encodeUri: string -> string,
    localize: string -> string)

  /** The HTTP reply: 200 with a response text, 400, or 500. */
  datatype Reply = Answer(text: string) | BadRequest | ServerError

  /** The reply, and the turn written to the conversation table, if any. */
  datatype ChatOutcome = ChatOutcome(reply: Reply, stored: Option<StoredTurn>)

  const GREETING_PROMPT :=
    "You are BoTesh, a friendly AI assistant. Respond to the user's greeting in a warm, conversational way."
  const GREETING_DEFAULT := "Hello!"
  const NEWS_UNAVAILABLE := "Sorry, I could not fetch the latest news at this time."
  /** "I apologize, but I couldn't generate a response.", the same text as
      one literal, split so that the absence of a colon is checked part by part. */
  const GENERAL_DEFAULT := "I apologize," + " but I couldn't" + " generate a response."
  const INSTRUCTIONS :=
    "Instructions: Use ONLY the web search results to answer the user's question. If the search results are not relevant, say you don't know. Quote or summarize the search results directly, and cite sources inline."

  /** The grounded prompt of the general path; an empty rewrite shows the message instead. */
  function ComposePrompt(historyBlock: string, message: string, rewritten: string, context: string): string {
    "You are BoTesh, a helpful AI assistant.\n\n<<Conversation History>>\n" + historyBlock +
    "\n\n<<User Query>>\n" + message +
    "\n\n<<Rewritten Query>>\n" + (if rewritten != "" then rewritten else message) +
    "\n\n<<Top 5 Sources>>\n" + context +
    "\n\n" + INSTRUCTIONS
  }

  /** An answer, stored with exactly the text returned. */
  function Answered(sessionId: string, message: string, text: string): (o: ChatOutcome)
    ensures o.reply.Answer? && o.stored == Some(StoredTurn(sessionId, message, o.reply.text))
  {
    ChatOutcome(Answer(text), Some(StoredTurn(sessionId, message, text)))
  }

  /** The results of the general path's search for a query. */
  function SearchResults(env: Env, query: string): seq<SearchResult> {
    DedupFrom(SearchWeb(env.braveSearch(query)) + SearchWikipedia(env.wikiSearch(query), env.encodeUri), {})
  }

  /** The prompt of the general path. */
  function GeneralPrompt(env: Env, message: string, sessionId: string): string {
    var rewritten := RephraseQuery(message, env.gemini);
    var context := Join(TopChunks(SearchResults(env, rewritten), MAX_SOURCES, MAX_CONTEXT_CHARS), "\n\n");
    var turns := GetConversationHistory(env.conversations, sessionId, CONTEXT_WINDOW);
    ComposePrompt(HistoryBlock(turns), message, rewritten, context)
  }

  /** The greeting path. */
  function ChitChatOutcome(env: Env, message: string, sessionId: string): ChatOutcome {
    Answered(sessionId, message,
      FinalText(env.gemini(GREETING_PROMPT), env.cohere(GREETING_PROMPT), GREETING_DEFAULT))
  }

  /** The news path: the digest, the apology when there are no articles, or a 500. */
  function NewsOutcome(env: Env, message: string, sessionId: string): ChatOutcome {
    match GetLiveNews(env.newsFeed(message))
    case Err(_) => ChatOutcome(ServerError, None)
    case Ok(articles) =>
      Answered(sessionId, message,
        if |articles| > 0 then NewsDigest(articles, env.localize) else NEWS_UNAVAILABLE)
  }

  /** The general path: the provider chain's answer to the grounded prompt. */
  function GeneralOutcome(env: Env, message: string, sessionId: string): ChatOutcome {
    var prompt := GeneralPrompt(env, message, sessionId);
    Answered(sessionId, message, FinalText(env.gemini(prompt), env.cohere(prompt), GENERAL_DEFAULT))
  }

  /** What the handler does with a request whose two fields are present. */
  function Respond(env: Env, message: string, sessionId: string): (o: ChatOutcome)
    ensures o.reply.Answer? <==> o.stored.Some?
    ensures o.reply.Answer? ==> o.stored == Some(StoredTurn(sessionId, message, o.reply.text))
    ensures o.reply != BadRequest
  {
    match RouteOf(message)
    case ChitChat => ChitChatOutcome(env, message, sessionId)
    case News => NewsOutcome(env, message, sessionId)
    case General => GeneralOutcome(env, message, sessionId)
  }

  /** The handler's outcome for a request body; a missing or empty field is a 400. */
  function ChatOutcomeOf(env: Env, message: Option<string>, sessionId: Option<string>): (o: ChatOutcome)
    ensures o.reply == BadRequest <==> !Usable(message) || !Usable(sessionId)
    ensures o.reply == BadRequest ==> o.stored == None
    ensures o.reply.Answer? ==> o.stored == Some(StoredTurn(sessionId.value, message.value, o.reply.text))
  {
    if !Usable(message) || !Usable(sessionId) then ChatOutcome(BadRequest, None)
    else Respond(env, message.value, sessionId.value)
  }

  method AnswerNews(env: Env, message: string, sessionId: string) returns (outcome: ChatOutcome)
    ensures outcome == NewsOutcome(env, message, sessionId)
  {
    var fetched := GetLiveNews(env.newsFeed(message));
    if fetched.Err? {
      return ChatOutcome(ServerError, None);
    }
    var articles := fetched.value;
    if |articles| > 0 {
      var newsResponse := FormatNews(articles, env.localize);
      return ChatOutcome(Answer(newsResponse), Some(StoredTurn(sessionId, message, newsResponse)));
    } else {
      return ChatOutcome(Answer(NEWS_UNAVAILABLE), Some(StoredTurn(sessionId, message, NEWS_UNAVAILABLE)));
    }
  }

  method AnswerGeneral(env: Env, message: string, sessionId: string) returns (outcome: ChatOutcome)
    ensures outcome == GeneralOutcome(env, message, sessionId)
  {
    var rewrittenQuery := RephraseQuery(message, env.gemini);
    var searchResults := MultiSourceSearch(
      SearchWeb(env.braveSearch(rewrittenQuery)),
      SearchWikipedia(env.wikiSearch(rewrittenQuery), env.encodeUri));
    var contextTurns := GetConversationHistory(env.conversations, sessionId, CONTEXT_WINDOW);
    var context := GetTopSources(searchResults, MAX_SOURCES, MAX_CONTEXT_CHARS);
    var prompt := ComposePrompt(HistoryBlock(contextTurns), message, rewrittenQuery, context);
    var response, _ := Generate(env.gemini, env.cohere, prompt, GENERAL_DEFAULT);
    return ChatOutcome(Answer(response), Some(StoredTurn(sessionId, message, response)));
  }

  /**
   * The handler, step by step: validate, route, and on the general path
   * rewrite, search, fetch the history, build the prompt and generate.
   */
  method HandleChat(env: Env, message: Option<string>, sessionId: Option<string>) returns (outcome: ChatOutcome)
    ensures outcome == ChatOutcomeOf(env, message, sessionId)
  {
    if !Usable(message) || !Usable(sessionId) {
      return ChatOutcome(BadRequest, None);
    }
    var m, sid := message.value, sessionId.value;
    var route := RouteOf(m);
    if route == ChitChat {
      var response, _ := Generate(env.gemini, env.cohere, GREETING_PROMPT, GREETING_DEFAULT);
      return ChatOutcome(Answer(response), Some(StoredTurn(sid, m, response)));
    } else if route == News {
      outcome := AnswerNews(env, m, sid);
    } else {
      outcome := AnswerGeneral(env, m, sid);
    }
  }

  // ---------------------------------------------------------------- properties of the handler

  /** A request with both fields is answered by the route's path. */
  lemma ValidRequest(env: Env, message: string, sessionId: string)
    requires message != "" && sessionId != ""
    ensures ChatOutcomeOf(env, Some(message), Some(sessionId)) == Respond(env, message, sessionId)
  {
  }

  lemma GreetingDefaultHasNoColon()
    ensures ':' !in GREETING_DEFAULT
  {
  }

  lemma GeneralDefaultHasNoColon()
    ensures ':' !in GENERAL_DEFAULT
  {
    assert ':' !in "I apologize," && ':' !in " but I couldn't" && ':' !in " generate a response.";
  }

  /** With both providers down, a greeting is answered with the degraded message, and that is what is stored. */
  lemma ChitChatProvidersDown(env: Env, message: string, sessionId: string)
    requires message != "" && sessionId != ""
    requires RouteOf(message) == ChitChat
    requires env.gemini(GREETING_PROMPT).Threw? && env.cohere(GREETING_PROMPT).Threw?
    ensures ChatOutcomeOf(env, Some(message), Some(sessionId)) == Answered(sessionId, message, LIMIT_MESSAGE)
  {
    BothFailedGivesLimit(GREETING_DEFAULT);
  }

  /** A missing or empty greeting, from either provider, is replaced by "Hello!". */
  lemma ChitChatEmptyReply(env: Env, message: string, sessionId: string)
    requires message != "" && sessionId != ""
    requires RouteOf(message) == ChitChat
    requires !Usable(Chain(env.gemini(GREETING_PROMPT), env.cohere(GREETING_PROMPT)))
    ensures ChatOutcomeOf(env, Some(message), Some(sessionId)) == Answered(sessionId, message, GREETING_DEFAULT)
  {
    ValidRequest(env, message, sessionId);
    GreetingDefaultHasNoColon();
    EmptyReplyGivesDefault(env.gemini(GREETING_PROMPT), env.cohere(GREETING_PROMPT), GREETING_DEFAULT);
  }

  /** With both providers down, a general question is answered with the degraded message, and that is what is stored. */
  lemma GeneralProvidersDown(env: Env, message: string, sessionId: string)
    requires message != "" && sessionId != ""
    requires RouteOf(message) == General
    requires env.gemini(GeneralPrompt(env, message, sessionId)).Threw?
    requires env.cohere(GeneralPrompt(env, message, sessionId)).Threw?
    ensures ChatOutcomeOf(env, Some(message), Some(sessionId)) == Answered(sessionId, message, LIMIT_MESSAGE)
  {
    ValidRequest(env, message, sessionId);
    BothFailedGivesLimit(GENERAL_DEFAULT);
  }

  /** An empty answer on the general path is replaced by the apology. */
  lemma GeneralEmptyReply(env: Env, message: string, sessionId: string)
    requires message != "" && sessionId != ""
    requires RouteOf(message) == General
    requires !Usable(Chain(env.gemini(GeneralPrompt(env, message, sessionId)), env.cohere(GeneralPrompt(env, message, sessionId))))
    ensures ChatOutcomeOf(env, Some(message), Some(sessionId)) == Answered(sessionId, message, GENERAL_DEFAULT)
  {
    var prompt := GeneralPrompt(env, message, sessionId);
    GeneralDefaultHasNoColon();
    EmptyReplyGivesDefault(env.gemini(prompt), env.cohere(prompt), GENERAL_DEFAULT);
  }

  /** A failed news request is a 500 and nothing is stored. */
  lemma NewsFetchFailure(env: Env, message: string, sessionId: string)
    requires message != "" && sessionId != ""
    requires RouteOf(message) == News && env.newsFeed(message).Err?
    ensures ChatOutcomeOf(env, Some(message), Some(sessionId)) == ChatOutcome(ServerError, None)
  {
  }

  /** A news payload without articles gets the fixed apology, which is stored. */
  lemma NewsWithoutArticles(env: Env, message: string, sessionId: string)
    requires message != "" && sessionId != ""
    requires RouteOf(message) == News && env.newsFeed(message).Ok?
    requires env.newsFeed(message).value.articles.None?
    ensures ChatOutcomeOf(env, Some(message), Some(sessionId)) == Answered(sessionId, message, NEWS_UNAVAILABLE)
  {
  }

  /** A news answer with articles is the digest of the fetched articles, not
      auto-linked; it opens with the heading. */
  lemma NewsAnswerIsDigest(env: Env, message: string, sessionId: string)
    requires message != "" && sessionId != ""
    requires RouteOf(message) == News && env.newsFeed(message).Ok?
    requires env.newsFeed(message).value.articles.Some? && env.newsFeed(message).value.articles.value != []
    ensures var o := ChatOutcomeOf(env, Some(message), Some(sessionId));
      o.reply.Answer? &&
      o.reply.text == NewsDigest(GetLiveNews(env.newsFeed(message)).value, env.localize) &&
      StartsWith(o.reply.text, NEWS_HEADING)
  {
    var articles := GetLiveNews(env.newsFeed(message)).value;
    DigestHeading(articles, env.localize);
  }

  /** A greeting's answer depends on nothing but the two providers' answers to the greeting prompt. */
  lemma ChitChatIgnoresSearchAndNews(env1: Env, env2: Env, message: string, sessionId: string)
    requires message != "" && sessionId != ""
    requires RouteOf(message) == ChitChat
    requires env1.gemini(GREETING_PROMPT) == env2.gemini(GREETING_PROMPT)
    requires env1.cohere(GREETING_PROMPT) == env2.cohere(GREETING_PROMPT)
    ensures ChatOutcomeOf(env1, Some(message), Some(sessionId)) == ChatOutcomeOf(env2, Some(message), Some(sessionId))
  {
  }

  /** Every answer is non-empty. */
  lemma AnswerNonEmpty(env: Env, message: string, sessionId: string)
    requires message != "" && sessionId != ""
    ensures var o := ChatOutcomeOf(env, Some(message), Some(sessionId));
      o.reply.Answer? ==> o.reply.text != ""
  {
    ValidRequest(env, message, sessionId);
    match RouteOf(message)
    case ChitChat =>
      FinalTextNonEmpty(env.gemini(GREETING_PROMPT), env.cohere(GREETING_PROMPT), GREETING_DEFAULT);
    case News =>
      if GetLiveNews(env.newsFeed(message)).Ok? {
        DigestHeading(GetLiveNews(env.newsFeed(message)).value, env.localize);
      }
    case General =>
      var prompt := GeneralPrompt(env, message, sessionId);
      FinalTextNonEmpty(env.gemini(prompt), env.cohere(prompt), GENERAL_DEFAULT);
  }

  /** The grounded prompt holds the message, the history block and the source context. */
  lemma PromptHoldsItsParts(historyBlock: string, message: string, rewritten: string, context: string)
    ensures var p := ComposePrompt(historyBlock, message, rewritten, context);
      Contains(p, message) && Contains(p, historyBlock) && Contains(p, context)
  {
    var slot := if rewritten != "" then rewritten else message;
    var s1 := "You are BoTesh, a helpful AI assistant.\n\n<<Conversation History>>\n" + historyBlock;
    var s2 := s1 + "\n\n<<User Query>>\n" + message;
    var s3 := s2 + "\n\n<<Rewritten Query>>\n" + slot;
    var s4 := s3 + "\n\n<<Top 5 Sources>>\n" + context;
    ContainsInfix("You are BoTesh, a helpful AI assistant.\n\n<<Conversation History>>\n", historyBlock, "");
    assert s1 + "" == s1;
    ContainsExtend(s1, "\n\n<<User Query>>\n", historyBlock);
    ContainsExtend(s1 + "\n\n<<User Query>>\n", message, historyBlock);
    ContainsInfix(s1 + "\n\n<<User Query>>\n", message, "");
    assert s2 + "" == s2;
    ContainsExtend(s2, "\n\n<<Rewritten Query>>\n", historyBlock);
    ContainsExtend(s2, "\n\n<<Rewritten Query>>\n", message);
    ContainsExtend(s2 + "\n\n<<Rewritten Query>>\n", slot, historyBlock);
    ContainsExtend(s2 + "\n\n<<Rewritten Query>>\n", slot, message);
    ContainsExtend(s3, "\n\n<<Top 5 Sources>>\n", historyBlock);
    ContainsExtend(s3, "\n\n<<Top 5 Sources>>\n", message);
    ContainsExtend(s3 + "\n\n<<Top 5 Sources>>\n", context, historyBlock);
    ContainsExtend(s3 + "\n\n<<Top 5 Sources>>\n", context, message);
    ContainsInfix(s3 + "\n\n<<Top 5 Sources>>\n", context, "");
    assert s4 + "" == s4;
    ContainsExtend(s4, "\n\n", historyBlock);
    ContainsExtend(s4, "\n\n", message);
    ContainsExtend(s4, "\n\n", context);
    ContainsExtend(s4 + "\n\n", INSTRUCTIONS, historyBlock);
    ContainsExtend(s4 + "\n\n", INSTRUCTIONS, message);
    ContainsExtend(s4 + "\n\n", INSTRUCTIONS, context);
  }

  /** An empty rewrite puts the message in the rewrite slot. */
  lemma EmptyRewriteShowsMessage(historyBlock: string, message: string, context: string)
    ensures ComposePrompt(historyBlock, message, "", context) == ComposePrompt(historyBlock, message, message, context)
  {
  }
}

=== FILE: History.dfy ===
/**
 * Conversation memory. Turns are rows of the `conversations` table; the
 * history of a session is the newest `n` of its rows (ordered by creation
 * time, descending, limited to `n`), turned back into oldest-first order.
 * The table is a sequence of rows in insertion order, so creation time is the
 * position in the sequence; a failed query is an `Err`. The history block of
 * the prompt renders each turn as two lines and joins turns with a line break.
 */
module History {
  import opened Wrappers
  import opened JsText
  import opened Seqs

  /** A row of the `conversations` table. */
  datatype StoredTurn = StoredTurn(sessionId: string, userMessage: string, botResponse: string)

  /** A turn of the history as the handler uses it. */
  datatype Turn = Turn(user: string, bot: string)

  const CONTEXT_WINDOW := 5

  /** The rows of one session, oldest first (`eq('session_id', …)`). */
  function SessionRows(rows: seq<StoredTurn>, sessionId: string): (r: seq<StoredTurn>)
    ensures |r| <= |rows|
    ensures forall i :: 0 <= i < |r| ==> r[i].sessionId == sessionId && r[i] in rows
    ensures forall x :: x in rows && x.sessionId == sessionId ==> x in r
    ensures forall x :: multiset(r)[x] == if x.sessionId == sessionId then multiset(rows)[x] else 0
    decreases |rows|
  {
    if rows == [] then []
    else
      var init, last := rows[..|rows| - 1], rows[|rows| - 1];
      assert rows == init + [last];
      assert multiset(rows) == multiset(init) + multiset{last};
      var rest := SessionRows(init, sessionId);
      if last.sessionId == sessionId then rest + [last] else rest
  }

  /** The session's rows keep the order they have in the table. */
  lemma {:induction false} SessionRowsInOrder(rows: seq<StoredTurn>, sessionId: string)
    ensures IsSubsequence(SessionRows(rows, sessionId), rows)
    decreases |rows|
  {
    if rows != [] {
      var init, last := rows[..|rows| - 1], rows[|rows| - 1];
      assert init + [last] == rows;
      SessionRowsInOrder(init, sessionId);
      if last.sessionId == sessionId {
        SubsequenceSnoc(SessionRows(init, sessionId), init, last);
      } else {
        SubsequenceExtend(SessionRows(init, sessionId), init, last);
      }
    }
  }

  function Reverse<T>(s: seq<T>): (r: seq<T>)
    ensures |r| == |s|
    ensures forall i :: 0 <= i < |s| ==> r[i] == s[|s| - 1 - i]
  {
    seq(|s|, i requires 0 <= i < |s| => s[|s| - 1 - i])
  }

  function ToTurn(row: StoredTurn): Turn {
    Turn(row.userMessage, row.botResponse)
  }

  function ToTurns(rows: seq<StoredTurn>): (turns: seq<Turn>)
    ensures |turns| == |rows|
    ensures forall i :: 0 <= i < |rows| ==> turns[i] == ToTurn(rows[i])
  {
    seq(|rows|, i requires 0 <= i < |rows| => ToTurn(rows[i]))
  }

  /** The query as the source writes it: newest first, the first `n`, reversed, mapped. */
  function GetConversationHistory(read: Result<seq<StoredTurn>>, sessionId: string, n: nat): (turns: seq<Turn>)
    ensures read.Err? ==> turns == []
    ensures |turns| <= n
  {
    match read
    case Err(_) => []
    case Ok(rows) =>
      var newestFirst := Reverse(SessionRows(rows, sessionId));
      ToTurns(Reverse(newestFirst[..Min(n, |newestFirst|)]))
  }

  /** The first `m` of the reversed sequence, reversed back, are its last `m`. */
  lemma ReverseTake<T>(s: seq<T>, m: nat)
    requires m <= |s|
    ensures Reverse(Reverse(s)[..m]) == s[|s| - m..]
  {
    var back := Reverse(Reverse(s)[..m]);
    forall i | 0 <= i < m ensures back[i] == s[|s| - m + i] {
      assert back[i] == Reverse(s)[..m][m - 1 - i] == s[|s| - 1 - (m - 1 - i)];
    }
  }

  /** The history is the last `min(n, k)` turns of the session, oldest first. */
  lemma HistoryIsRecentSuffix(rows: seq<StoredTurn>, sessionId: string, n: nat)
    ensures var s := SessionRows(rows, sessionId);
      var m := Min(n, |s|);
      GetConversationHistory(Ok(rows), sessionId, n) == ToTurns(s[|s| - m..])
  {
    var s := SessionRows(rows, sessionId);
    ReverseTake(s, Min(n, |s|));
  }

  /** A turn just stored is the newest turn of its session's next history. */
  lemma StoredTurnIsNewest(rows: seq<StoredTurn>, turn: StoredTurn, n: nat)
    requires n >= 1
    ensures var h := GetConversationHistory(Ok(rows + [turn]), turn.sessionId, n);
      h != [] && h[|h| - 1] == ToTurn(turn)
  {
    var all := rows + [turn];
    assert all[..|all| - 1] == rows;
    var s := SessionRows(all, turn.sessionId);
    assert s[|s| - 1] == turn;
    HistoryIsRecentSuffix(all, turn.sessionId, n);
  }

  /** Rows of other sessions never reach the history. */
  lemma OtherSessionsIgnored(rows: seq<StoredTurn>, other: StoredTurn, sessionId: string, n: nat)
    requires other.sessionId != sessionId
    ensures GetConversationHistory(Ok(rows + [other]), sessionId, n) == GetConversationHistory(Ok(rows), sessionId, n)
  {
    assert (rows + [other])[..|rows + [other]| - 1] == rows;
  }

  /** `User: ${turn.user}\nBot: ${turn.bot}`. */
  function RenderTurn(turn: Turn): (s: string)
    ensures StartsWith(s, "User: ")
  {
    "User: " + turn.user + "\nBot: " + turn.bot
  }

  /** The history block of the prompt. */
  function HistoryBlock(turns: seq<Turn>): string {
    Join(seq(|turns|, i requires 0 <= i < |turns| => RenderTurn(turns[i])), "\n")
  }

  /** The lines a history of single-line turns should show, oldest turn first:
      `User: ` and the user's text, then `Bot: ` and the bot's text, per turn. */
  function TurnLines(turns: seq<Turn>): (ls: seq<string>)
    ensures |ls| == 2 * |turns|
    decreases |turns|
  {
    if turns == [] then [] else ["User: " + turns[0].user, "Bot: " + turns[0].bot] + TurnLines(turns[1..])
  }

  /** Line `2i` holds the user's text of turn `i`, line `2i + 1` the bot's. */
  lemma {:induction false} TurnLinesAt(turns: seq<Turn>, i: nat)
    requires i < |turns|
    ensures TurnLines(turns)[2 * i] == "User: " + turns[i].user
    ensures TurnLines(turns)[2 * i + 1] == "Bot: " + turns[i].bot
    decreases i
  {
    if i > 0 {
      TurnLinesAt(turns[1..], i - 1);
    }
  }

  predicate SingleLine(s: string) {
    '\n' !in s
  }

  lemma RenderTurnBreaks(turn: Turn)
    requires SingleLine(turn.user) && SingleLine(turn.bot)
    ensures CountChar('\n', RenderTurn(turn)) == 1
  {
    CountConcat('\n', "User: " + turn.user, "\nBot: ");
    CountConcat('\n', "User: " + turn.user + "\nBot: ", turn.bot);
    CountConcat('\n', "User: ", turn.user);
    CountConcat('\n', "\n", "Bot: ");
    CountAbsent('\n', turn.user);
    CountAbsent('\n', turn.bot);
    CountAbsent('\n', "User: ");
    CountAbsent('\n', "Bot: ");
  }

  /** A rendered turn reads back as its two lines, the user's text and the bot's. */
  lemma RenderTurnLines(turn: Turn)
    requires SingleLine(turn.user) && SingleLine(turn.bot)
    ensures Lines(RenderTurn(turn)) == ["User: " + turn.user, "Bot: " + turn.bot]
  {
    var u, b := "User: " + turn.user, "Bot: " + turn.bot;
    assert RenderTurn(turn) == u + "\n" + b;
    assert '\n' !in u && '\n' !in b;
    LinesConcat(u, b);
    LinesSingle(u);
    LinesSingle(b);
  }

  /** The history block reads back, line by line, as the turns in order. */
  lemma {:induction false} HistoryBlockLines(turns: seq<Turn>)
    requires turns != []
    requires forall i :: 0 <= i < |turns| ==> SingleLine(turns[i].user) && SingleLine(turns[i].bot)
    ensures Lines(HistoryBlock(turns)) == TurnLines(turns)
    decreases |turns|
  {
    var parts := seq(|turns|, i requires 0 <= i < |turns| => RenderTurn(turns[i]));
    RenderTurnLines(turns[0]);
    if |turns| > 1 {
      var tail := turns[1..];
      var rest := Join(parts[1..], "\n");
      assert parts[1..] == seq(|tail|, i requires 0 <= i < |tail| => RenderTurn(tail[i]));
      HistoryBlockLines(tail);
      assert HistoryBlock(turns) == parts[0] + "\n" + rest;
      LinesConcat(parts[0], rest);
    } else {
      assert HistoryBlock(turns) == parts[0];
      assert turns[1..] == [];
    }
  }

  /** With single-line texts, a history of k turns spans exactly 2k lines:
      one break inside each turn and one between each two. */
  lemma {:induction false} HistoryBlockBreaks(turns: seq<Turn>)
    requires turns != []
    requires forall i :: 0 <= i < |turns| ==> SingleLine(turns[i].user) && SingleLine(turns[i].bot)
    ensures CountChar('\n', HistoryBlock(turns)) == 2 * |turns| - 1
    decreases |turns|
  {
    var parts := seq(|turns|, i requires 0 <= i < |turns| => RenderTurn(turns[i]));
    RenderTurnBreaks(turns[0]);
    if |turns| > 1 {
      var tail := turns[1..];
      var rest := Join(parts[1..], "\n");
      assert parts[1..] == seq(|tail|, i requires 0 <= i < |tail| => RenderTurn(tail[i]));
      HistoryBlockBreaks(tail);
      assert HistoryBlock(turns) == parts[0] + "\n" + rest;
      CountConcat('\n', parts[0], "\n");
      CountConcat('\n', parts[0] + "\n", rest);
    }
  }
}

=== FILE: Intent.dfy ===
/**
 * Intent routing of the `/chat` handler and the topic-based follow-up
 * suggestions. The two routing tests are case-insensitive regular expressions
 * applied to the trimmed message:
 *   chit-chat  `^(hi|hello|hey|good morning|good evening|good night|how are you|what's up|yo|sup)`
 *   news       `(latest|breaking) news|headlines|top stories`
 * Each is written here as a string predicate over the trimmed, case-folded
 * message. The greeting test is anchored at the start but has no word
 * boundary, and it is tried before the news test.
 */
module Intent {
  import opened JsText

  /** The alternatives of the greeting expression, as they are written (all lower case). */
  const GREETINGS: seq<string> :=
    ["hi", "hello", "hey", "good morning", "good evening", "good night",
     "how are you", "what's up", "yo", "sup"]

  /** The phrases the news expression matches: `(latest|breaking) news` spelled out. */
  const NEWS_PHRASES: seq<string> := ["latest news", "breaking news", "headlines", "top stories"]

  /** The text both expressions are matched against, with the `i` flag applied. */
  function Folded(message: string): string {
    Lower(Trim(message))
  }

  /** The greeting expression matches: the folded text starts with a greeting. */
  predicate IsChitChat(message: string) {
    exists i :: 0 <= i < |GREETINGS| && StartsWith(Folded(message), GREETINGS[i])
  }

  /** The news expression matches: a headline phrase occurs anywhere in the folded text. */
  predicate IsNewsRequest(message: string) {
    exists i :: 0 <= i < |NEWS_PHRASES| && Contains(Folded(message), NEWS_PHRASES[i])
  }

  datatype Route = ChitChat | News | General

  /** The branch of the handler a (non-empty) message takes. */
  function RouteOf(message: string): (r: Route)
    ensures r == ChitChat <==> IsChitChat(message)
    ensures r == News <==> !IsChitChat(message) && IsNewsRequest(message)
    ensures r == General <==> !IsChitChat(message) && !IsNewsRequest(message)
  {
    if IsChitChat(message) then ChitChat
    else if IsNewsRequest(message) then News
    else General
  }

  /** Routing ignores case: folding the message first changes nothing. */
  lemma RouteIgnoresCase(message: string)
    ensures Folded(Lower(message)) == Folded(message)
    ensures RouteOf(Lower(message)) == RouteOf(message)
  {
    TrimLowerCommute(message);
    LowerIdempotent(Trim(message));
  }

  /** Routing ignores whitespace in front of the message. */
  lemma RouteIgnoresLeadingSpace(c: char, message: string)
    requires IsSpace(c)
    ensures RouteOf([c] + message) == RouteOf(message)
  {
    TrimIgnoresLeadingSpace(c, message);
  }

  /** Every greeting is in lower case and starts and ends with a visible character. */
  lemma {:induction false} GreetingsAreFolded()
    ensures forall i :: 0 <= i < |GREETINGS| ==>
      GREETINGS[i] != [] && Lower(GREETINGS[i]) == GREETINGS[i] &&
      !IsSpace(GREETINGS[i][0]) && !IsSpace(GREETINGS[i][|GREETINGS[i]| - 1])
  {
    forall i | 0 <= i < |GREETINGS|
      ensures Lower(GREETINGS[i]) == GREETINGS[i]
    {
      LowerNoUpper(GREETINGS[i]);
    }
  }

  /** A word with visible ends at the front of a text survives trimming. */
  lemma TrimKeepsPrefix(g: string, rest: string)
    requires g != [] && !IsSpace(g[0]) && !IsSpace(g[|g| - 1])
    ensures StartsWith(Trim(g + rest), g)
  {
    var s := g + rest;
    assert s[0] == g[0] && s[|g| - 1] == g[|g| - 1];
    assert TrimStart(s) == s;
    var r := TrimEnd(s);
    assert |r| >= |g|;
    assert r[..|g|] == s[..|g|] == g;
  }

  /** Folding keeps a prefix that is already in lower case. */
  lemma LowerKeepsPrefix(r: string, g: string)
    requires StartsWith(r, g) && Lower(g) == g
    ensures StartsWith(Lower(r), g)
  {
    assert Lower(r)[..|g|] == Lower(r[..|g|]);
  }

  /** A lower-case word with visible ends survives trimming and folding at the front of a text. */
  lemma FoldedKeepsPrefix(g: string, rest: string)
    requires g != [] && Lower(g) == g && !IsSpace(g[0]) && !IsSpace(g[|g| - 1])
    ensures StartsWith(Folded(g + rest), g)
  {
    TrimKeepsPrefix(g, rest);
    LowerKeepsPrefix(Trim(g + rest), g);
  }

  /** Whatever follows a greeting, the message is chit-chat: there is no word
      boundary after the greeting, so "history of Rome" (after "hi") and
      "yoga" (after "yo") take the greeting branch. */
  lemma GreetingPrefixIsChitChat(i: nat, rest: string)
    requires i < |GREETINGS|
    ensures IsChitChat(GREETINGS[i] + rest)
    ensures RouteOf(GREETINGS[i] + rest) == ChitChat
  {
    GreetingsAreFolded();
    FoldedKeepsPrefix(GREETINGS[i], rest);
  }

  /** A message whose folded form starts with none of h, g, w, y, s is never chit-chat. */
  lemma NotChitChatByInitial(message: string)
    requires Folded(message) != [] && Folded(message)[0] !in "hgwys"
    ensures !IsChitChat(message)
  {
    var f := Folded(message);
    forall i | 0 <= i < |GREETINGS| ensures !StartsWith(f, GREETINGS[i]) {
      var g := GREETINGS[i];
      assert g != [] && g[0] in "hgwys";
      if |g| <= |f| {
        assert f[..|g|][0] == f[0] != g[0];
      }
    }
  }

  /** A headline phrase anywhere in a message that is not a greeting routes it to the news branch. */
  lemma NewsPhraseRoutesToNews(message: string, j: nat)
    requires j < |NEWS_PHRASES| && Contains(Folded(message), NEWS_PHRASES[j])
    requires !IsChitChat(message)
    ensures RouteOf(message) == News
  {
  }

  /** The greeting test comes first: a greeting followed by a headline phrase is chit-chat. */
  lemma GreetingBeforeNews(i: nat, j: nat, middle: string)
    requires i < |GREETINGS| && j < |NEWS_PHRASES|
    ensures RouteOf(GREETINGS[i] + middle + NEWS_PHRASES[j]) == ChitChat
  {
    assert GREETINGS[i] + middle + NEWS_PHRASES[j] == GREETINGS[i] + (middle + NEWS_PHRASES[j]);
    GreetingPrefixIsChitChat(i, middle + NEWS_PHRASES[j]);
  }

  lemma HistoryIsChitChat()
    ensures RouteOf("history of Rome") == ChitChat
  {
    assert "history of Rome" == GREETINGS[0] + "story of Rome";
    GreetingPrefixIsChitChat(0, "story of Rome");
  }

  lemma YogaIsChitChat()
    ensures RouteOf("yoga") == ChitChat
  {
    assert "yoga" == GREETINGS[8] + "ga";
    GreetingPrefixIsChitChat(8, "ga");
  }

  lemma NewsPhrasesAreFolded()
    ensures forall j :: 0 <= j < |NEWS_PHRASES| ==>
      NEWS_PHRASES[j] != [] && Lower(NEWS_PHRASES[j]) == NEWS_PHRASES[j] &&
      !IsSpace(NEWS_PHRASES[j][0]) && !IsSpace(NEWS_PHRASES[j][|NEWS_PHRASES[j]| - 1])
  {
  }

  /** A message whose folded form opens with "hea" is not a greeting: each
      greeting differs from "hea" within its first three characters. */
  lemma HeaIsNotChitChat(message: string)
    requires |Folded(message)| >= 3 && Folded(message)[..3] == "hea"
    ensures !IsChitChat(message)
  {
    var f := Folded(message);
    assert f[0] == 'h' && f[1] == 'e' && f[2] == 'a' by {
      assert f[..3][0] == f[0] && f[..3][1] == f[1] && f[..3][2] == f[2];
    }
    forall i | 0 <= i < |GREETINGS| ensures !StartsWith(f, GREETINGS[i]) {
      var g := GREETINGS[i];
      assert g[0] != 'h' || g[1] != 'e' || (|g| >= 3 && g[2] != 'a');
      if |g| <= |f| {
        assert f[..|g|][0] == f[0] && f[..|g|][1] == f[1];
        if |g| >= 3 {
          assert f[..|g|][2] == f[2];
        }
      }
    }
  }

  /** A message opening with a headline phrase, in any case and with anything
      after it, takes the news branch. */
  lemma LeadingPhraseIsNews(j: nat, rest: string)
    requires j < |NEWS_PHRASES|
    ensures RouteOf(NEWS_PHRASES[j] + rest) == News
  {
    var m := NEWS_PHRASES[j] + rest;
    NewsPhrasesAreFolded();
    FoldedKeepsPrefix(NEWS_PHRASES[j], rest);
    if j == 2 {
      assert Folded(m)[..3] == NEWS_PHRASES[j][..3];
      HeaIsNotChitChat(m);
    } else {
      assert Folded(m)[0] == NEWS_PHRASES[j][0];
      NotChitChatByInitial(m);
    }
    assert Contains(Folded(m), NEWS_PHRASES[j]);
  }

  lemma BreakingNewsIsNews()
    ensures RouteOf("breaking news on elections") == News
  {
    assert "breaking news on elections" == NEWS_PHRASES[1] + " on elections";
    LeadingPhraseIsNews(1, " on elections");
  }

  // ---------------------------------------------------------------- follow-up suggestions

  const CRICKET_SUGGESTIONS: seq<string> :=
    ["Show latest IPL news", "List top IPL teams", "Who is the current Orange Cap holder?"]
  const WEB_SUGGESTIONS: seq<string> :=
    ["Show top JavaScript frameworks", "How to optimize web performance?",
     "What is the best way to learn JavaScript?"]
  const DEFAULT_SUGGESTIONS: seq<string> := ["Ask a follow-up question", "Request more details"]

  /** `/cricket|ipl/i` matches the raw query. */
  predicate MentionsCricket(query: string) {
    Contains(Lower(query), "cricket") || Contains(Lower(query), "ipl")
  }

  /** `/js|javascript|web/i` matches the raw query. */
  predicate MentionsWeb(query: string) {
    Contains(Lower(query), "js") || Contains(Lower(query), "javascript") || Contains(Lower(query), "web")
  }

  /** Topic-based suggestions: cricket first, then web development, else the generic pair. */
  function FollowUpSuggestions(query: string): (s: seq<string>)
    ensures MentionsCricket(query) ==> s == CRICKET_SUGGESTIONS
    ensures !MentionsCricket(query) && MentionsWeb(query) ==> s == WEB_SUGGESTIONS
    ensures !MentionsCricket(query) && !MentionsWeb(query) ==> s == DEFAULT_SUGGESTIONS
    ensures 2 <= |s| <= 3
  {
    if MentionsCricket(query) then CRICKET_SUGGESTIONS
    else if MentionsWeb(query) then WEB_SUGGESTIONS
    else DEFAULT_SUGGESTIONS
  }

  /** The topic tests ignore case. */
  lemma SuggestionsIgnoreCase(query: string)
    ensures FollowUpSuggestions(Lower(query)) == FollowUpSuggestions(query)
  {
    LowerIdempotent(query);
  }

  /** "ipl" anywhere, in any case and with no word boundary, gives the cricket
      suggestions, whatever else (a web topic included) the query mentions. */
  lemma IplAnywhereGivesCricket(before: string, after: string)
    ensures FollowUpSuggestions(before + "ipl" + after) == CRICKET_SUGGESTIONS
  {
    var q := before + "ipl" + after;
    assert Lower(q) == Lower(before) + "ipl" + Lower(after);
    ContainsInfix(Lower(before), "ipl", Lower(after));
  }
}

=== FILE: JsText.dfy ===
/**
 * The JavaScript string built-ins the pipeline relies on, written out over
 * `seq<char>`: `trim`, the `\s` and `.` character classes of regular
 * expressions, ASCII case folding (what the `i` flag does for the ASCII-only
 * patterns of this program), prefix and substring tests, `Array.join`,
 * UTF-16 `length`, and the decimal rendering of a number in a template string.
 */
module JsText {

  /** WhiteSpace or LineTerminator in ECMAScript: what `trim` removes and `\s` matches. */
  predicate IsSpace(c: char) {
    c == '\t' || c == '\n' || c == '\U{000B}' || c == '\U{000C}' || c == '\r' || c == ' ' ||
    c == '\U{00A0}' || c == '\U{1680}' || ('\U{2000}' <= c <= '\U{200A}') ||
    c == '\U{2028}' || c == '\U{2029}' || c == '\U{202F}' || c == '\U{205F}' ||
    c == '\U{3000}' || c == '\U{FEFF}'
  }

  /** The characters a regular-expression `.` does not match. */
  predicate IsLineTerminator(c: char) {
    c == '\n' || c == '\r' || c == '\U{2028}' || c == '\U{2029}'
  }

  // ---------------------------------------------------------------- trim

  function TrimStart(s: string): (r: string)
    ensures |r| <= |s| && r == s[|s| - |r|..]
    ensures r == [] || !IsSpace(r[0])
    ensures forall i :: 0 <= i < |s| - |r| ==> IsSpace(s[i])
  {
    if s != [] && IsSpace(s[0]) then TrimStart(s[1..]) else s
  }

  function TrimEnd(s: string): (r: string)
    ensures |r| <= |s| && r == s[..|r|]
    ensures r == [] || !IsSpace(r[|r| - 1])
    ensures forall i :: |r| <= i < |s| ==> IsSpace(s[i])
  {
    if s != [] && IsSpace(s[|s| - 1]) then TrimEnd(s[..|s| - 1]) else s
  }

  /** `String.prototype.trim`: the infix of `s` left once the whitespace at both ends is gone. */
  function Trim(s: string): (r: string)
    ensures r == [] || (!IsSpace(r[0]) && !IsSpace(r[|r| - 1]))
    ensures var i := |s| - |TrimStart(s)|;
            i + |r| <= |s| && r == s[i..i + |r|] &&
            (forall k :: 0 <= k < i ==> IsSpace(s[k])) &&
            (forall k :: i + |r| <= k < |s| ==> IsSpace(s[k]))
  {
    TrimEnd(TrimStart(s))
  }

  /** Whitespace in front of a string makes no difference to its trimmed form. */
  lemma TrimIgnoresLeadingSpace(c: char, s: string)
    requires IsSpace(c)
    ensures Trim([c] + s) == Trim(s)
  {
    assert ([c] + s)[1..] == s;
  }

  /** A string without whitespace at its ends is its own trimmed form. */
  lemma TrimNoOp(s: string)
    requires s == [] || (!IsSpace(s[0]) && !IsSpace(s[|s| - 1]))
    ensures Trim(s) == s
  {
  }

  // ---------------------------------------------------------------- case folding

  function LowerChar(c: char): char {
    if 'A' <= c <= 'Z' then (c as int + 32) as char else c
  }

  /** ASCII lower case. The `i` flag of a non-Unicode JavaScript regular
      expression never maps a non-ASCII character onto an ASCII one, so for the
      ASCII-only patterns of this program it is exactly this folding. */
  function Lower(s: string): (r: string)
    ensures |r| == |s|
    ensures forall i :: 0 <= i < |r| ==> !('A' <= r[i] <= 'Z')
  {
    seq(|s|, i requires 0 <= i < |s| => LowerChar(s[i]))
  }

  /** A text without capital letters is its own lower case. */
  lemma LowerNoUpper(s: string)
    requires forall i :: 0 <= i < |s| ==> !('A' <= s[i] <= 'Z')
    ensures Lower(s) == s
  {
  }

  lemma LowerIdempotent(s: string)
    ensures Lower(Lower(s)) == Lower(s)
  {
  }

  lemma {:induction false} TrimStartLower(s: string)
    ensures TrimStart(Lower(s)) == Lower(TrimStart(s))
    decreases |s|
  {
    if s != [] {
      var l := Lower(s);
      assert l[0] == LowerChar(s[0]);
      assert IsSpace(l[0]) == IsSpace(s[0]);
      if IsSpace(s[0]) {
        assert l[1..] == Lower(s[1..]);
        TrimStartLower(s[1..]);
      }
    }
  }

  lemma {:induction false} TrimEndLower(s: string)
    ensures TrimEnd(Lower(s)) == Lower(TrimEnd(s))
    decreases |s|
  {
    if s != [] {
      var l := Lower(s);
      assert l[|s| - 1] == LowerChar(s[|s| - 1]);
      assert IsSpace(l[|s| - 1]) == IsSpace(s[|s| - 1]);
      if IsSpace(s[|s| - 1]) {
        assert l[..|s| - 1] == Lower(s[..|s| - 1]);
        TrimEndLower(s[..|s| - 1]);
      }
    }
  }

  /** Folding case and trimming commute: folding never creates or removes whitespace. */
  lemma TrimLowerCommute(s: string)
    ensures Trim(Lower(s)) == Lower(Trim(s))
  {
    TrimStartLower(s);
    TrimEndLower(TrimStart(s));
  }

  // ---------------------------------------------------------------- prefixes and substrings

  predicate StartsWith(s: string, p: string) {
    |p| <= |s| && s[..|p|] == p
  }

  predicate EndsWith(s: string, t: string) {
    |t| <= |s| && s[|s| - |t|..] == t
  }

  /** `p` occurs somewhere in `s` (an unanchored regular-expression match of a literal). */
  predicate Contains(s: string, p: string)
    decreases |s|
  {
    StartsWith(s, p) || (s != [] && Contains(s[1..], p))
  }

  lemma {:induction false} ContainsAt(s: string, i: nat, p: string)
    requires i <= |s| && StartsWith(s[i..], p)
    ensures Contains(s, p)
    decreases i
  {
    if i > 0 {
      assert s[1..][i - 1..] == s[i..];
      ContainsAt(s[1..], i - 1, p);
    }
  }

  lemma ContainsInfix(a: string, x: string, b: string)
    ensures Contains(a + x + b, x)
  {
    assert (a + x + b)[|a|..][..|x|] == x;
    ContainsAt(a + x + b, |a|, x);
  }

  /** An occurrence stays an occurrence when text is appended. */
  lemma {:induction false} ContainsExtend(s: string, t: string, p: string)
    requires Contains(s, p)
    ensures Contains(s + t, p)
    decreases |s|
  {
    if StartsWith(s, p) {
      assert (s + t)[..|p|] == s[..|p|];
    } else {
      assert (s + t)[1..] == s[1..] + t;
      ContainsExtend(s[1..], t, p);
    }
  }

  /** A pattern with a character the text lacks does not occur in it. */
  lemma {:induction false} ContainsNeedsChar(s: string, p: string, c: char)
    requires c in p && c !in s
    ensures !Contains(s, p)
    decreases |s|
  {
    var k :| 0 <= k < |p| && p[k] == c;
    assert !StartsWith(s, p) by {
      if |p| <= |s| {
        assert s[..|p|][k] == s[k] != c;
      }
    }
    if s != [] {
      ContainsNeedsChar(s[1..], p, c);
    }
  }

  /** A printable ASCII character other than the space is not whitespace. */
  lemma VisibleIsNotSpace(s: string)
    requires forall i :: 0 <= i < |s| ==> '!' <= s[i] <= '~'
    ensures forall i :: 0 <= i < |s| ==> !IsSpace(s[i])
  {
  }

  // ---------------------------------------------------------------- join

  /** `Array.prototype.join(sep)`. */
  function Join(parts: seq<string>, sep: string): string
    decreases |parts|
  {
    if |parts| == 0 then "" else if |parts| == 1 then parts[0] else parts[0] + sep + Join(parts[1..], sep)
  }

  // ---------------------------------------------------------------- lines

  /** The position of the first `c` in `s`. */
  function IndexOf(s: string, c: char): (k: nat)
    requires c in s
    ensures k < |s| && s[k] == c && c !in s[..k]
  {
    if s[0] == c then 0 else 1 + IndexOf(s[1..], c)
  }

  /** `s.split('\n')`: the lines of a text, the last one unterminated. */
  function Lines(s: string): (ls: seq<string>)
    ensures ls != []
    decreases |s|
  {
    if s == [] then [""]
    else
      var ls := Lines(s[1..]);
      if s[0] == '\n' then [""] + ls else [[s[0]] + ls[0]] + ls[1..]
  }

  /** A text without a break is a single line. */
  lemma {:induction false} LinesSingle(s: string)
    requires '\n' !in s
    ensures Lines(s) == [s]
    decreases |s|
  {
    if s != [] {
      LinesSingle(s[1..]);
      assert s[0] != '\n' && [s[0]] + s[1..] == s;
    }
  }

  /** A line break splits the lines of a text in two. */
  lemma {:induction false} LinesConcat(a: string, b: string)
    ensures Lines(a + "\n" + b) == Lines(a) + Lines(b)
    decreases |a|
  {
    var s := a + "\n" + b;
    if a == [] {
      assert s == "\n" + b && s[1..] == b;
    } else {
      assert s[0] == a[0] && s[1..] == a[1..] + "\n" + b;
      LinesConcat(a[1..], b);
    }
  }

  // ---------------------------------------------------------------- concatenation

  // Regrouping steps. Dafny proves each alone; they are stated once and called
  // by name because handing the solver the exact regrouping keeps the callers'
  // proofs small and stable.

  lemma Assoc(a: string, b: string, c: string)
    ensures a + b + c == a + (b + c)
  {
  }

  lemma Regroup(a: string, b: string, c: string, d: string)
    ensures a + b + c + d == a + (b + c + d)
  {
  }

  // ---------------------------------------------------------------- counting

  function CountChar(c: char, s: string): nat
    decreases |s|
  {
    if s == [] then 0 else (if s[0] == c then 1 else 0) + CountChar(c, s[1..])
  }

  lemma {:induction false} CountConcat(c: char, a: string, b: string)
    ensures CountChar(c, a + b) == CountChar(c, a) + CountChar(c, b)
    decreases |a|
  {
    if a == [] {
      assert a + b == b;
    } else {
      assert (a + b)[0] == a[0] && (a + b)[1..] == a[1..] + b;
      CountConcat(c, a[1..], b);
    }
  }

  lemma {:induction false} CountAbsent(c: char, s: string)
    requires c !in s
    ensures CountChar(c, s) == 0
    decreases |s|
  {
    if s != [] {
      CountAbsent(c, s[1..]);
    }
  }

  /** The number of UTF-16 code units of a character: two for a surrogate pair. */
  function CharUnits(c: char): nat {
    if c as int > 0xFFFF then 2 else 1
  }

  /** `String.prototype.length`, which counts UTF-16 code units. */
  function CodeUnits(s: string): (n: nat)
    ensures |s| <= n <= 2 * |s|
    decreases |s|
  {
    if s == [] then 0 else CharUnits(s[0]) + CodeUnits(s[1..])
  }

  lemma {:induction false} CodeUnitsConcat(a: string, b: string)
    ensures CodeUnits(a + b) == CodeUnits(a) + CodeUnits(b)
    decreases |a|
  {
    if a == [] {
      assert a + b == b;
    } else {
      assert (a + b)[0] == a[0] && (a + b)[1..] == a[1..] + b;
      CodeUnitsConcat(a[1..], b);
    }
  }

  /** The summed `length` of a list of strings. */
  function SumUnits(parts: seq<string>): nat
    decreases |parts|
  {
    if parts == [] then 0 else CodeUnits(parts[0]) + SumUnits(parts[1..])
  }

  /** The `length` of a join is the lengths of the parts plus one separator between each two. */
  lemma {:induction false} CodeUnitsJoin(parts: seq<string>, sep: string)
    requires parts != []
    ensures CodeUnits(Join(parts, sep)) == SumUnits(parts) + (|parts| - 1) * CodeUnits(sep)
    decreases |parts|
  {
    if |parts| > 1 {
      var rest := Join(parts[1..], sep);
      assert Join(parts, sep) == (parts[0] + sep) + rest;
      CodeUnitsJoin(parts[1..], sep);
      CodeUnitsConcat(parts[0], sep);
      CodeUnitsConcat(parts[0] + sep, rest);
      assert SumUnits(parts) == CodeUnits(parts[0]) + SumUnits(parts[1..]);
      assert (|parts| - 1) * CodeUnits(sep) == CodeUnits(sep) + (|parts| - 2) * CodeUnits(sep);
    }
  }

  // ---------------------------------------------------------------- numbers

  predicate IsDigit(c: char) {
    '0' <= c <= '9'
  }

  function DigitChar(d: nat): (c: char)
    requires d < 10
    ensures IsDigit(c) && c as int - '0' as int == d
  {
    ('0' as int + d) as char
  }

  /** A number in a template string: its decimal digits, without leading zeros. */
  function NatToString(n: nat): (r: string)
    ensures |r| >= 1
    ensures forall i :: 0 <= i < |r| ==> IsDigit(r[i])
    ensures r[0] == '0' ==> n == 0
    decreases n
  {
    if n < 10 then [DigitChar(n)] else NatToString(n / 10) + [DigitChar(n % 10)]
  }

  /** The number a string of decimal digits denotes. */
  function DecimalValue(s: string): nat
    requires forall i :: 0 <= i < |s| ==> IsDigit(s[i])
    decreases |s|
  {
    if s == [] then 0
    else
      assert IsDigit(s[|s| - 1]);
      10 * DecimalValue(s[..|s| - 1]) + (s[|s| - 1] as int - '0' as int)
  }

  /** Reading the rendered number back gives the number: distinct numbers render distinctly. */
  lemma {:induction false} DecimalRoundTrip(n: nat)
    ensures DecimalValue(NatToString(n)) == n
    decreases n
  {
    if n >= 10 {
      var r := NatToString(n);
      assert r[..|r| - 1] == NatToString(n / 10);
      DecimalRoundTrip(n / 10);
    }
  }
}

=== FILE: NewsResolver.dfy ===
/**
 * The news path: the NewsAPI payload mapped to articles (`getLiveNews`) and
 * the markdown digest built from them (`formatNews`). The HTTP request is a
 * parameter of the model: its outcome is a `Result` (a failed fetch or body
 * parse is an `Err`, which `getLiveNews` does not catch), and the rendering of
 * a timestamp with `toLocaleString` is an opaque function `localize`.
 */
module NewsResolver {
  import opened Wrappers
  import opened JsText

  datatype NewsArticle = NewsArticle(title: string, source: string, url: string, publishedAt: string)

  /** An article as NewsAPI sends it: the source is an object with a name. */
  datatype RawSource = RawSource(name: string)
  datatype RawArticle = RawArticle(title: string, source: RawSource, url: string, publishedAt: string)

  /** The response body: `articles` is absent on an API error, which carries a `message`. */
  datatype NewsPayload = NewsPayload(articles: Option<seq<RawArticle>>, message: Option<string>)

  function ToArticle(raw: RawArticle): NewsArticle {
    NewsArticle(raw.title, raw.source.name, raw.url, raw.publishedAt)
  }

  /** The payload mapping of `getLiveNews`. */
  function GetLiveNews(fetched: Result<NewsPayload>): (r: Result<seq<NewsArticle>>)
    ensures fetched.Err? ==> r == Err(fetched.error)
    ensures fetched.Ok? && fetched.value.articles.None? ==> r == Ok([])
    ensures fetched.Ok? && fetched.value.articles.Some? ==>
      var raw := fetched.value.articles.value;
      r.Ok? && |r.value| == |raw| &&
      forall i :: 0 <= i < |raw| ==>
        r.value[i].title == raw[i].title && r.value[i].source == raw[i].source.name &&
        r.value[i].url == raw[i].url && r.value[i].publishedAt == raw[i].publishedAt
  {
    match fetched
    case Err(e) => Err(e)
    case Ok(payload) =>
      match payload.articles
      case None => Ok([])
      case Some(raw) => Ok(seq(|raw|, i requires 0 <= i < |raw| => ToArticle(raw[i])))
  }

  // ---------------------------------------------------------------- formatNews

  const NEWS_HEADING := "\U{1F4F0} **Top News Headlines:**\n\n"
  const BLOCK_END := "\n---\n\n"

  /** `**${i + 1}. [${a.title}](${a.url})**\n`, for the article numbered `n`. */
  function TitleLine(n: nat, a: NewsArticle): string {
    "**" + NatToString(n) + ". [" + a.title + "](" + a.url + ")**\n"
  }

  /** `[Source: ${a.source}](${a.url})` when both fields are truthy, else nothing. */
  function SourceLink(a: NewsArticle): string {
    if a.source != "" && a.url != "" then "[Source: " + a.source + "](" + a.url + ")" else ""
  }

  /** `  •  _${time}_` when the article has a timestamp, else nothing. */
  function Timestamp(a: NewsArticle, localize: string -> string): string {
    if a.publishedAt != "" then "  •  _" + localize(a.publishedAt) + "_" else ""
  }

  /** Everything appended for the article numbered `n`. */
  function Block(n: nat, a: NewsArticle, localize: string -> string): string {
    TitleLine(n, a) + SourceLink(a) + Timestamp(a, localize) + BLOCK_END
  }

  /** One block per article, numbered from 1 in input order; there is no cap on the count. */
  function Blocks(articles: seq<NewsArticle>, localize: string -> string): (bs: seq<string>)
    ensures |bs| == |articles|
    ensures forall i :: 0 <= i < |articles| ==> bs[i] == Block(i + 1, articles[i], localize)
  {
    seq(|articles|, i requires 0 <= i < |articles| => Block(i + 1, articles[i], localize))
  }

  /** The concatenation of a list of strings, built from the left as the loop builds it. */
  function Concat(parts: seq<string>): string
    decreases |parts|
  {
    if parts == [] then "" else Concat(parts[..|parts| - 1]) + parts[|parts| - 1]
  }

  lemma ConcatSnoc(parts: seq<string>, i: nat)
    requires i < |parts|
    ensures Concat(parts[..i + 1]) == Concat(parts[..i]) + parts[i]
  {
    assert parts[..i + 1][..i] == parts[..i];
  }

  /** The digest `formatNews` returns. */
  function NewsDigest(articles: seq<NewsArticle>, localize: string -> string): string {
    NEWS_HEADING + Concat(Blocks(articles, localize))
  }

  /** A string starts with any left part of it (called by name to keep the callers' proofs small). */
  lemma PrefixOfConcat(x: string, y: string)
    ensures StartsWith(x + y, x)
  {
    assert (x + y)[..|x|] == x;
  }

  /** One iteration of the loop appends exactly the article's block (a regrouping
      step, called by name to keep the loop's proof small). */
  lemma AppendBlock(msg: string, n: nat, a: NewsArticle, localize: string -> string)
    ensures msg + TitleLine(n, a) + SourceLink(a) + Timestamp(a, localize) + BLOCK_END ==
            msg + Block(n, a, localize)
  {
    Regroup(msg + TitleLine(n, a), SourceLink(a), Timestamp(a, localize), BLOCK_END);
    Regroup(msg, TitleLine(n, a), SourceLink(a) + Timestamp(a, localize) + BLOCK_END, "");
    assert TitleLine(n, a) + (SourceLink(a) + Timestamp(a, localize) + BLOCK_END) == Block(n, a, localize);
  }

  /** `formatNews`: the heading, then one block per article appended in a loop. */
  method FormatNews(articles: seq<NewsArticle>, localize: string -> string) returns (msg: string)
    ensures msg == NewsDigest(articles, localize)
  {
    ghost var bs := Blocks(articles, localize);
    msg := NEWS_HEADING;
    for i := 0 to |articles|
      invariant msg == NEWS_HEADING + Concat(bs[..i])
    {
      ghost var before := msg;
      var a := articles[i];
      msg := msg + TitleLine(i + 1, a);
      ghost var titled := msg;
      if a.source != "" && a.url != "" {
        msg := msg + ("[Source: " + a.source + "](" + a.url + ")");
      } else {
        assert titled + SourceLink(a) == titled;
      }
      assert msg == titled + SourceLink(a);
      msg := msg + Timestamp(a, localize);
      msg := msg + BLOCK_END;
      AppendBlock(before, i + 1, a, localize);
      assert msg == before + bs[i];
      ConcatSnoc(bs, i);
      Assoc(NEWS_HEADING, Concat(bs[..i]), bs[i]);
    }
    assert bs[..|articles|] == bs;
  }

  /** The digest always opens with the heading, and is exactly the heading when there are no articles. */
  lemma DigestHeading(articles: seq<NewsArticle>, localize: string -> string)
    ensures StartsWith(NewsDigest(articles, localize), NEWS_HEADING)
    ensures articles == [] ==> NewsDigest(articles, localize) == NEWS_HEADING
  {
    var d := NewsDigest(articles, localize);
    assert d[..|NEWS_HEADING|] == NEWS_HEADING;
  }

  /** Appending an article appends exactly its block, numbered one past the others:
      the blocks keep the input order and earlier blocks never change. */
  lemma DigestAppend(articles: seq<NewsArticle>, a: NewsArticle, localize: string -> string)
    ensures NewsDigest(articles + [a], localize) ==
            NewsDigest(articles, localize) + Block(|articles| + 1, a, localize)
  {
    var bs := Blocks(articles + [a], localize);
    var n := |articles|;
    assert bs[..n] == Blocks(articles, localize);
    assert bs[n] == Block(n + 1, a, localize);
    assert Concat(bs) == Concat(bs[..n]) + bs[n];
    Assoc(NEWS_HEADING, Concat(bs[..n]), bs[n]);
  }

  /** Whatever is put in front of a string keeps its ending. */
  lemma EndingKept(x: string, y: string, t: string)
    requires EndsWith(y, t)
    ensures EndsWith(x + y, t)
  {
    assert (x + y)[|x + y| - |t|..] == y[|y| - |t|..];
  }

  /** Every non-empty digest ends with the block separator. */
  lemma DigestEndsWithSeparator(articles: seq<NewsArticle>, localize: string -> string)
    requires articles != []
    ensures EndsWith(NewsDigest(articles, localize), BLOCK_END)
  {
    var bs := Blocks(articles, localize);
    var n := |bs| - 1;
    var a := articles[n];
    var body := TitleLine(n + 1, a) + SourceLink(a) + Timestamp(a, localize);
    assert bs[n] == body + BLOCK_END;
    assert BLOCK_END[0..] == BLOCK_END;
    EndingKept(body, BLOCK_END, BLOCK_END);
    EndingKept(Concat(bs[..n]), bs[n], BLOCK_END);
    assert Concat(bs) == Concat(bs[..n]) + bs[n];
    EndingKept(NEWS_HEADING, Concat(bs), BLOCK_END);
  }

  /** The character at the join of two strings is the second one's first. */
  lemma CharAtJoin(x: string, y: string)
    requires y != []
    ensures (x + y)[|x|] == y[0]
  {
  }

  /** What follows the title line opens with `[` exactly when there is a source link. */
  lemma AfterTitle(a: NewsArticle, localize: string -> string)
    ensures var rest := SourceLink(a) + (Timestamp(a, localize) + BLOCK_END);
      rest != [] && (rest[0] == '[' <==> a.source != "" && a.url != "")
  {
    var tail := Timestamp(a, localize) + BLOCK_END;
    if a.source != "" && a.url != "" {
      assert SourceLink(a)[0] == '[';
    } else {
      assert SourceLink(a) + tail == tail;
      if a.publishedAt != "" {
        assert tail[0] == ' ';
      } else {
        assert tail[0] == '\n';
      }
    }
  }

  /** Right after the title line comes a `[`, the source link, exactly when the
      article has both a source and a URL. */
  lemma SourceLinkWhenBothPresent(n: nat, a: NewsArticle, localize: string -> string)
    ensures var b := Block(n, a, localize);
      var t := |TitleLine(n, a)|;
      t < |b| && (b[t] == '[' <==> a.source != "" && a.url != "")
  {
    var rest := SourceLink(a) + (Timestamp(a, localize) + BLOCK_END);
    Regroup(TitleLine(n, a), SourceLink(a), Timestamp(a, localize), BLOCK_END);
    Assoc(SourceLink(a), Timestamp(a, localize), BLOCK_END);
    assert Block(n, a, localize) == TitleLine(n, a) + rest;
    AfterTitle(a, localize);
    CharAtJoin(TitleLine(n, a), rest);
  }

  /** After the title line and the source link comes the timestamp, which opens
      with a space, exactly when the article has a `publishedAt`; otherwise the
      block ends there with its separator. */
  lemma TimestampWhenPublished(n: nat, a: NewsArticle, localize: string -> string)
    ensures var b := Block(n, a, localize);
      var t := |TitleLine(n, a)| + |SourceLink(a)|;
      t < |b| && (b[t] == ' ' <==> a.publishedAt != "") &&
      (a.publishedAt == "" ==> b[t..] == BLOCK_END)
  {
    var b := Block(n, a, localize);
    var t := |TitleLine(n, a)| + |SourceLink(a)|;
    var rest := Timestamp(a, localize) + BLOCK_END;
    assert b == TitleLine(n, a) + SourceLink(a) + rest;
    assert b[t..] == rest;
  }

  /** Article `i` (from 0) is rendered as number `i + 1`, written in decimal,
      and reading that number back gives `i + 1`. */
  lemma BlockNumbering(articles: seq<NewsArticle>, localize: string -> string, i: nat)
    requires i < |articles|
    ensures var b := Blocks(articles, localize)[i];
      var num := NatToString(i + 1);
      StartsWith(b, "**" + num + ". [" + articles[i].title + "](" + articles[i].url + ")**\n") &&
      DecimalValue(num) == i + 1
  {
    var a := articles[i];
    var line := TitleLine(i + 1, a);
    Regroup(line, SourceLink(a), Timestamp(a, localize), BLOCK_END);
    PrefixOfConcat(line, SourceLink(a) + Timestamp(a, localize) + BLOCK_END);
    DecimalRoundTrip(i + 1);
  }
}

=== FILE: Providers.dfy ===
/**
 * The provider fallback chain of the `/chat` handler. A reply is asked of
 * Gemini; only if that call throws is Cohere asked; if Cohere throws too, the
 * reply is a fixed degraded message. A reply that is then `null`, `undefined`
 * or empty is replaced by a default text, and the result is auto-linked. The
 * providers themselves are parameters: each call is summed up by its outcome.
 */
module Providers {
  import opened Wrappers
  import opened JsText
  import opened AutoLink

  /** The outcome of one provider call: it threw, or it gave back a text
      (`None` for a `null` or `undefined` text field). */
  datatype Attempt = Threw | Returned(text: Option<string>)

  /** "Limit reached. Please try again later after some time.", the same text as
      one literal, split so that the absence of a colon is checked part by part. */
  const LIMIT_MESSAGE := "Limit reached." + " Please try again" + " later after some time."

  /** The JavaScript truthiness of the reply: `null`, `undefined` and "" are falsy. */
  predicate Usable(reply: Option<string>) {
    reply.Some? && reply.value != ""
  }

  /** The value `response` holds after the nested try/catch blocks. */
  function Chain(primary: Attempt, secondary: Attempt): (reply: Option<string>)
    ensures primary.Returned? ==> reply == primary.text
    ensures primary.Threw? && secondary.Returned? ==> reply == secondary.text
    ensures primary.Threw? && secondary.Threw? ==> reply == Some(LIMIT_MESSAGE)
  {
    match primary
    case Returned(text) => text
    case Threw =>
      match secondary
      case Returned(text) => text
      case Threw => Some(LIMIT_MESSAGE)
  }

  /** `reply || fallback`. */
  function OrDefault(reply: Option<string>, fallback: string): (t: string)
    ensures Usable(reply) ==> t == reply.value
    ensures !Usable(reply) ==> t == fallback
    ensures t != "" <== fallback != ""
  {
    if Usable(reply) then reply.value else fallback
  }

  /** The text the handler returns and stores. */
  function FinalText(primary: Attempt, secondary: Attempt, fallback: string): string {
    AutoLinkUrls(OrDefault(Chain(primary, secondary), fallback))
  }

  /**
   * The handler's nested try/catch over `response`, as a method: `prompt` is
   * sent to the primary provider and, only if that throws, to the secondary.
   * `askedSecondary` tells whether the secondary provider was consulted.
   */
  method Generate(primary: string -> Attempt, secondary: string -> Attempt, prompt: string, fallback: string)
    returns (response: string, askedSecondary: bool)
    ensures response == FinalText(primary(prompt), secondary(prompt), fallback)
    ensures askedSecondary <==> primary(prompt).Threw?
    ensures fallback != "" ==> response != ""
  {
    var reply: Option<string> := None;
    askedSecondary := false;
    var first := primary(prompt);
    if first.Returned? {
      reply := first.text;
    } else {
      askedSecondary := true;
      var second := secondary(prompt);
      if second.Returned? {
        reply := second.text;
      } else {
        reply := Some(LIMIT_MESSAGE);
      }
    }
    var text := OrDefault(reply, fallback);
    AutoLinkNeverShortens(text);
    response := AutoLinkUrls(text);
  }

  /** When the primary provider answers, the secondary one makes no difference. */
  lemma PrimaryWins(primary: Attempt, secondary1: Attempt, secondary2: Attempt, fallback: string)
    requires primary.Returned?
    ensures FinalText(primary, secondary1, fallback) == FinalText(primary, secondary2, fallback)
    ensures Usable(primary.text) ==> FinalText(primary, secondary1, fallback) == AutoLinkUrls(primary.text.value)
  {
  }

  /** When the primary provider throws, the secondary provider's text is used. */
  lemma SecondaryAfterFailure(secondary: Attempt, fallback: string)
    requires secondary.Returned? && Usable(secondary.text)
    ensures FinalText(Threw, secondary, fallback) == AutoLinkUrls(secondary.text.value)
  {
  }

  lemma LimitMessageHasNoColon()
    ensures ':' !in LIMIT_MESSAGE
  {
    assert ':' !in "Limit reached." && ':' !in " Please try again" && ':' !in " later after some time.";
  }

  /** When both providers throw, the reply is exactly the degraded message, whatever the fallback. */
  lemma BothFailedGivesLimit(fallback: string)
    ensures FinalText(Threw, Threw, fallback) == LIMIT_MESSAGE
  {
    LimitMessageHasNoColon();
    AutoLinkWithoutColon(LIMIT_MESSAGE);
  }

  /** An empty or missing text falls back on the default text, which is auto-linked like any other. */
  lemma EmptyReplyGivesDefault(primary: Attempt, secondary: Attempt, fallback: string)
    requires !Usable(Chain(primary, secondary))
    ensures FinalText(primary, secondary, fallback) == AutoLinkUrls(fallback)
    ensures ':' !in fallback ==> FinalText(primary, secondary, fallback) == fallback
  {
    if ':' !in fallback {
      AutoLinkWithoutColon(fallback);
    }
  }

  /** An empty primary text does not consult the secondary provider: "" is a
      success for the try block and only the default text replaces it. */
  lemma EmptyPrimaryIsNotAFailure(secondary: Attempt, fallback: string)
    ensures FinalText(Returned(Some("")), secondary, fallback) == AutoLinkUrls(fallback)
  {
  }

  /** With a non-empty default the reply is never empty. */
  lemma FinalTextNonEmpty(primary: Attempt, secondary: Attempt, fallback: string)
    requires fallback != ""
    ensures FinalText(primary, secondary, fallback) != ""
  {
    AutoLinkNeverShortens(OrDefault(Chain(primary, secondary), fallback));
  }
}

=== FILE: Rewrite.dfy ===
/**
 * Query understanding (`rephraseQuery`): the user's message is sent to the
 * provider with a fixed instruction, and the rewritten query is read back out
 * of the reply with `/Rephrased:(.*)/i`. With the marker, the result is the
 * rest of the line after the first marker, trimmed (`.` stops at a line
 * terminator); without it, the whole reply, trimmed. Any failure of the call
 * leaves the user's message as it was.
 */
module Rewrite {
  import opened Wrappers
  import opened JsText
  import opened Providers

  const PROMPT_HEAD :=
    "You are a search assistant. Rephrase the following user query to make it clear and optimized for web or AI search.\nInput: "
  const PROMPT_TAIL := "\nRephrased:"

  /** The instruction sent to the provider. */
  function RephrasePrompt(userQuery: string): (p: string)
    ensures Contains(p, userQuery)
    ensures |p| == |PROMPT_HEAD| + |userQuery| + |PROMPT_TAIL|
  {
    ContainsInfix(PROMPT_HEAD, userQuery, PROMPT_TAIL);
    PROMPT_HEAD + userQuery + PROMPT_TAIL
  }

  /** The marker as the `i` flag sees it. */
  const MARKER := "rephrased:"

  /** `Rephrased:`, in any case, starts at position `i`. */
  predicate MarkerAt(text: string, i: nat) {
    i + |MARKER| <= |text| && Lower(text[i..i + |MARKER|]) == MARKER
  }

  /** The leftmost position at or after `from` where the marker starts. */
  function FindMarker(text: string, from: nat): (r: Option<nat>)
    requires from <= |text|
    ensures r.Some? ==> from <= r.value && MarkerAt(text, r.value)
    ensures r.Some? ==> forall k :: from <= k < r.value ==> !MarkerAt(text, k)
    ensures r.None? ==> forall k :: from <= k <= |text| ==> !MarkerAt(text, k)
    decreases |text| - from
  {
    if from + |MARKER| > |text| then None
    else if MarkerAt(text, from) then Some(from)
    else FindMarker(text, from + 1)
  }

  /** Where `.*` starting at `from` stops: the next line terminator, or the end. */
  function LineEnd(text: string, from: nat): (e: nat)
    requires from <= |text|
    ensures from <= e <= |text|
    ensures e < |text| ==> IsLineTerminator(text[e])
    ensures forall k :: from <= k < e ==> !IsLineTerminator(text[k])
    decreases |text| - from
  {
    if from == |text| || IsLineTerminator(text[from]) then from else LineEnd(text, from + 1)
  }

  /** `match ? match[1].trim() : text.trim()`. */
  function ParseRephrased(text: string): string {
    match FindMarker(text, 0)
    case Some(p) => Trim(text[p + |MARKER|..LineEnd(text, p + |MARKER|)])
    case None => Trim(text)
  }

  /** The rewritten query: the parsed reply, or the user's query when the call
      throws or its text is missing (calling `match` on it would throw). */
  function RephraseQuery(userQuery: string, provider: string -> Attempt): string {
    match provider(RephrasePrompt(userQuery))
    case Returned(Some(text)) => ParseRephrased(text)
    case _ => userQuery
  }

  lemma {:induction false} FindMarkerFirst(text: string, from: nat, p: nat)
    requires from <= p && MarkerAt(text, p)
    requires forall k :: from <= k < p ==> !MarkerAt(text, k)
    ensures FindMarker(text, from) == Some(p)
    decreases p - from
  {
    if from < p {
      FindMarkerFirst(text, from + 1, p);
    }
  }

  lemma {:induction false} LineEndAt(text: string, from: nat, e: nat)
    requires from <= e <= |text|
    requires forall k :: from <= k < e ==> !IsLineTerminator(text[k])
    requires e == |text| || IsLineTerminator(text[e])
    ensures LineEnd(text, from) == e
    decreases e - from
  {
    if from < e {
      LineEndAt(text, from + 1, e);
    }
  }

  /** The rewritten query is the rest of the line after the first marker, trimmed,
      whatever the case of the marker and whatever follows the line break. */
  lemma ParseFirstMarkerLine(before: string, marker: string, line: string, after: string)
    requires |marker| == |MARKER| && Lower(marker) == MARKER
    requires forall k :: 0 <= k < |before| ==> !MarkerAt(before + marker + line + after, k)
    requires forall k :: 0 <= k < |line| ==> !IsLineTerminator(line[k])
    requires after == [] || IsLineTerminator(after[0])
    ensures ParseRephrased(before + marker + line + after) == Trim(line)
  {
    var text := before + marker + line + after;
    var p := |before|;
    var q := p + |MARKER|;
    assert text[p..q] == marker;
    FindMarkerFirst(text, 0, p);
    forall k | q <= k < q + |line| ensures !IsLineTerminator(text[k]) {
      assert text[k] == line[k - q];
    }
    if after != [] {
      assert text[q + |line|] == after[0];
    }
    LineEndAt(text, q, q + |line|);
    assert text[q..q + |line|] == line;
  }

  /** Without the marker, the whole reply is trimmed. */
  lemma ParseWithoutMarker(text: string)
    requires forall k :: 0 <= k < |text| ==> !MarkerAt(text, k)
    ensures ParseRephrased(text) == Trim(text)
  {
  }

  /** Trimming a text without line terminators leaves none. */
  lemma TrimHasNoBreak(s: string)
    requires forall k :: 0 <= k < |s| ==> !IsLineTerminator(s[k])
    ensures forall k :: 0 <= k < |Trim(s)| ==> !IsLineTerminator(Trim(s)[k])
  {
    var r := Trim(s);
    var i := |s| - |TrimStart(s)|;
    forall k | 0 <= k < |r| ensures !IsLineTerminator(r[k]) {
      assert r[k] == s[i + k];
    }
  }

  /** With the marker, the rewritten query never spans two lines. */
  lemma ParsedLineHasNoBreak(text: string)
    requires FindMarker(text, 0).Some?
    ensures forall k :: 0 <= k < |ParseRephrased(text)| ==> !IsLineTerminator(ParseRephrased(text)[k])
  {
    var q := FindMarker(text, 0).value + |MARKER|;
    var e := LineEnd(text, q);
    var segment := text[q..e];
    forall k | 0 <= k < |segment| ensures !IsLineTerminator(segment[k]) {
      assert segment[k] == text[q + k];
    }
    TrimHasNoBreak(segment);
    assert ParseRephrased(text) == Trim(segment);
  }

  /** A provider that answers `Rephrased: x` hands back `x` (trimmed, single-line). */
  lemma RephraseRoundTrip(userQuery: string, provider: string -> Attempt, x: string)
    requires provider(RephrasePrompt(userQuery)) == Returned(Some("Rephrased: " + x))
    requires x == [] || (!IsSpace(x[0]) && !IsSpace(x[|x| - 1]))
    requires forall k :: 0 <= k < |x| ==> !IsLineTerminator(x[k])
    ensures RephraseQuery(userQuery, provider) == x
  {
    var line := " " + x;
    assert "Rephrased: " + x == [] + "Rephrased:" + line + [];
    forall k | 0 <= k < |line| ensures !IsLineTerminator(line[k]) {
      if k > 0 {
        assert line[k] == x[k - 1];
      }
    }
    ParseFirstMarkerLine([], "Rephrased:", line, []);
    TrimIgnoresLeadingSpace(' ', x);
    TrimNoOp(x);
  }

  /** A failed call leaves the user's query as it was. */
  lemma RephraseFailureKeepsQuery(userQuery: string, provider: string -> Attempt)
    requires provider(RephrasePrompt(userQuery)).Threw?
    ensures RephraseQuery(userQuery, provider) == userQuery
  {
  }
}

=== FILE: Seqs.dfy ===
/** Sequence helpers: the clamped end of `slice(0, n)` and subsequences. */
module Seqs {

  /** The end `slice(0, n)` clamps to: the smaller of the length and `n`. */
  function Min(a: nat, b: nat): (m: nat)
    ensures m <= a && m <= b && (m == a || m == b)
  {
    if a <= b then a else b
  }

  /** `a` is `b` with some elements left out, the rest kept in their order. */
  predicate IsSubsequence<T(==)>(a: seq<T>, b: seq<T>)
    decreases |b|
  {
    a == [] || (b != [] && ((a[0] == b[0] && IsSubsequence(a[1..], b[1..])) || IsSubsequence(a, b[1..])))
  }

  /** A subsequence of a suffix is a subsequence of the whole. */
  lemma {:induction false} SubsequenceOfSuffix<T>(a: seq<T>, b: seq<T>, k: nat)
    requires k <= |b| && IsSubsequence(a, b[k..])
    ensures IsSubsequence(a, b)
    decreases k
  {
    if k > 0 {
      assert b[1..][k - 1..] == b[k..];
      SubsequenceOfSuffix(a, b[1..], k - 1);
    }
  }

  /** Appending an element to the sequence keeps a subsequence. */
  lemma {:induction false} SubsequenceExtend<T>(a: seq<T>, b: seq<T>, x: T)
    requires IsSubsequence(a, b)
    ensures IsSubsequence(a, b + [x])
    decreases |b|
  {
    if a != [] {
      assert (b + [x])[1..] == b[1..] + [x];
      if a[0] == b[0] && IsSubsequence(a[1..], b[1..]) {
        SubsequenceExtend(a[1..], b[1..], x);
      } else {
        SubsequenceExtend(a, b[1..], x);
      }
    }
  }

  /** Appending the same element to both keeps a subsequence. */
  lemma {:induction false} SubsequenceSnoc<T>(a: seq<T>, b: seq<T>, x: T)
    requires IsSubsequence(a, b)
    ensures IsSubsequence(a + [x], b + [x])
    decreases |b|
  {
    if b == [] {
      assert a == [] && (a + [x])[1..] == [];
    } else if a == [] {
      assert (b + [x])[1..] == b[1..] + [x];
      SubsequenceSnoc(a, b[1..], x);
    } else {
      assert (b + [x])[1..] == b[1..] + [x];
      assert (a + [x])[1..] == a[1..] + [x];
      if a[0] == b[0] && IsSubsequence(a[1..], b[1..]) {
        SubsequenceSnoc(a[1..], b[1..], x);
      } else {
        SubsequenceSnoc(a, b[1..], x);
      }
    }
  }
}

=== FILE: Sources.dfy ===
/**
 * Retrieval: the web and Wikipedia connectors, the aggregator that merges and
 * deduplicates their results (multiSourceSearch), and the trimming of the
 * merged results into the source context of the prompt (getTopSources).
 *
 * The HTTP calls are not modelled: each connector receives what its request
 * produced, an `Err` for a failed or non-OK request or an unparsable body,
 * otherwise the parsed payload, whose list may be missing.
 */
module Sources {
  import opened Wrappers
  import opened JsText
  import opened Seqs

  datatype SearchResult = SearchResult(title: string, description: string, url: string)

  // ---------------------------------------------------------------- connectors

  /** searchWeb: the Brave results, or the empty list whenever the request, the
      payload or its `web.results` list is missing. */
  function SearchWeb(response: Result<Option<seq<SearchResult>>>): (results: seq<SearchResult>)
    ensures response.Err? ==> results == []
    ensures response.Ok? && response.value.None? ==> results == []
    ensures response.Ok? && response.value.Some? ==> results == response.value.value
  {
    match response
    case Err(_) => []
    case Ok(None) => []
    case Ok(Some(rs)) => rs
  }

  /** One entry of the Wikipedia search payload. */
  datatype WikiHit = WikiHit(title: string, snippet: string)

  const WIKI_ARTICLE_BASE := "https://en.wikipedia.org/wiki/"

  /** The regular expression `<[^>]+>` matches at the start of `s`: a `<`,
      at least one character other than `>`, then a `>`. */
  predicate TagAt(s: string) {
    |s| >= 3 && s[0] == '<' && s[1] != '>' && '>' in s[2..]
  }

  /** The length of that match: up to and including the first `>`. */
  function TagLength(s: string): (n: nat)
    requires TagAt(s)
    ensures 3 <= n <= |s| && s[n - 1] == '>' && '>' !in s[1..n - 1]
  {
    assert s[2..] == s[1..][1..];
    2 + IndexOf(s[1..], '>')
  }

  /** `snippet.replace(/<[^>]+>/g, '')`: scanning left to right, every tag match is deleted. */
  function StripTags(s: string): (r: string)
    ensures |r| <= |s|
    decreases |s|
  {
    if s == [] then []
    else if TagAt(s) then StripTags(s[TagLength(s)..])
    else [s[0]] + StripTags(s[1..])
  }

  /** Every character of the stripped snippet occurs in the snippet. */
  lemma {:induction false} StripTagsChars(s: string)
    ensures forall c :: c in StripTags(s) ==> c in s
    decreases |s|
  {
    if s != [] {
      if TagAt(s) {
        StripTagsChars(s[TagLength(s)..]);
      } else {
        StripTagsChars(s[1..]);
      }
    }
  }

  /** Stripping only deletes: what is left is the snippet with some characters
      left out and the rest in their order. */
  lemma {:induction false} StripTagsSubsequence(s: string)
    ensures IsSubsequence(StripTags(s), s)
    decreases |s|
  {
    if s != [] {
      if TagAt(s) {
        StripTagsSubsequence(s[TagLength(s)..]);
        SubsequenceOfSuffix(StripTags(s), s, TagLength(s));
      } else {
        StripTagsSubsequence(s[1..]);
        assert StripTags(s)[1..] == StripTags(s[1..]);
      }
    }
  }

  /** Where the expression matches nowhere, nothing is deleted: a `<` that
      opens no tag, as in "1 < 2", is kept. */
  lemma {:induction false} StripTagsWithoutTag(s: string)
    requires forall i :: 0 <= i < |s| ==> !TagAt(s[i..])
    ensures StripTags(s) == s
    decreases |s|
  {
    if s != [] {
      assert s[0..] == s;
      forall i | 0 <= i < |s[1..]| ensures !TagAt(s[1..][i..]) {
        assert s[1..][i..] == s[i + 1..];
      }
      StripTagsWithoutTag(s[1..]);
    }
  }

  /** Stripping twice is stripping once. */
  lemma StripTagsIdempotent(s: string)
    ensures StripTags(StripTags(s)) == StripTags(s)
  {
    StripTagsLeavesNoTag(s);
    StripTagsWithoutTag(StripTags(s));
  }

  /** A snippet without `<` is left as it is. */
  lemma {:induction false} StripTagsPlain(s: string)
    requires '<' !in s
    ensures StripTags(s) == s
    decreases |s|
  {
    if s != [] {
      StripTagsPlain(s[1..]);
    }
  }

  /** No tag survives: the regular expression finds no match anywhere in the
      stripped text, so stripping it again changes nothing. */
  lemma {:induction false} StripTagsLeavesNoTag(s: string)
    ensures forall i :: 0 <= i < |StripTags(s)| ==> !TagAt(StripTags(s)[i..])
    decreases |s|
  {
    if s != [] {
      if TagAt(s) {
        StripTagsLeavesNoTag(s[TagLength(s)..]);
      } else {
        var rest := StripTags(s[1..]);
        var r := StripTags(s);
        assert r == [s[0]] + rest;
        StripTagsLeavesNoTag(s[1..]);
        forall i | 0 <= i < |r| ensures !TagAt(r[i..]) {
          if i > 0 {
            assert r[i..] == rest[i - 1..];
          } else if s[0] == '<' && |rest| >= 2 {
            if |s| >= 2 && s[1] == '>' {
              assert !TagAt(s[1..]);
              assert rest[0] == '>';
            } else {
              assert |s| >= 3;
              assert '>' !in s[2..];
              assert s[2..] == s[1..][1..];
              StripTagsChars(s[1..]);
              assert '>' !in rest;
              assert '>' !in r[2..];
            }
          }
        }
      }
    }
  }

  /** `title.replace(/ /g, '_')`: every U+0020 space becomes an underscore. */
  function SpacesToUnderscores(s: string): (r: string)
    ensures |r| == |s| && ' ' !in r
    ensures forall i :: 0 <= i < |s| && s[i] == ' ' ==> r[i] == '_'
    ensures forall i :: 0 <= i < |s| && s[i] != ' ' ==> r[i] == s[i]
  {
    seq(|s|, i requires 0 <= i < |s| => if s[i] == ' ' then '_' else s[i])
  }

  /** The article URL synthesised from a title; `encode` stands for `encodeURIComponent`. */
  function WikiUrl(title: string, encode: string -> string): (u: string)
    ensures StartsWith(u, WIKI_ARTICLE_BASE)
    ensures u[|WIKI_ARTICLE_BASE|..] == encode(SpacesToUnderscores(title))
  {
    WIKI_ARTICLE_BASE + encode(SpacesToUnderscores(title))
  }

  /** searchWikipedia: one result per hit, in order, with the markup stripped from
      the snippet and the URL built from the title; the empty list on failure. */
  function SearchWikipedia(response: Result<Option<seq<WikiHit>>>, encode: string -> string): (results: seq<SearchResult>)
    ensures response.Err? ==> results == []
    ensures response.Ok? && response.value.None? ==> results == []
    ensures response.Ok? && response.value.Some? ==>
      var hits := response.value.value;
      |results| == |hits| &&
      forall i :: 0 <= i < |hits| ==>
        results[i].title == hits[i].title &&
        results[i].description == StripTags(hits[i].snippet) &&
        results[i].url == WikiUrl(hits[i].title, encode)
  {
    match response
    case Err(_) => []
    case Ok(None) => []
    case Ok(Some(hits)) =>
      seq(|hits|, i requires 0 <= i < |hits| =>
        SearchResult(hits[i].title, StripTags(hits[i].snippet), WikiUrl(hits[i].title, encode)))
  }

  // ---------------------------------------------------------------- aggregation

  function Urls(s: seq<SearchResult>): set<string> {
    set r | r in s :: r.url
  }

  /** No two results share a URL. */
  predicate DistinctUrls(s: seq<SearchResult>) {
    forall i, j :: 0 <= i < j < |s| ==> s[i].url != s[j].url
  }

  /** `s` with every result dropped whose URL is in `seen` or on an earlier result:
      the `filter` of multiSourceSearch, started with the set `seen`. */
  function DedupFrom(s: seq<SearchResult>, seen: set<string>): seq<SearchResult>
    decreases |s|
  {
    if s == [] then []
    else if s[0].url in seen then DedupFrom(s[1..], seen)
    else [s[0]] + DedupFrom(s[1..], seen + {s[0].url})
  }

  /** The first result of `s` carrying URL `u`. */
  function FirstWithUrl(s: seq<SearchResult>, u: string): (r: SearchResult)
    requires u in Urls(s)
    ensures r in s && r.url == u
  {
    if s[0].url == u then s[0] else assert u in Urls(s[1..]); FirstWithUrl(s[1..], u)
  }

  lemma {:induction false} DedupSound(s: seq<SearchResult>, seen: set<string>)
    ensures forall x :: x in DedupFrom(s, seen) ==> x in s && x.url !in seen
    decreases |s|
  {
    if s != [] {
      if s[0].url in seen {
        DedupSound(s[1..], seen);
      } else {
        DedupSound(s[1..], seen + {s[0].url});
      }
    }
  }

  /** The output never repeats a URL. */
  lemma {:induction false} DedupDistinct(s: seq<SearchResult>, seen: set<string>)
    ensures DistinctUrls(DedupFrom(s, seen))
    decreases |s|
  {
    if s != [] {
      if s[0].url in seen {
        DedupDistinct(s[1..], seen);
      } else {
        var rest := DedupFrom(s[1..], seen + {s[0].url});
        DedupDistinct(s[1..], seen + {s[0].url});
        DedupSound(s[1..], seen + {s[0].url});
        var r := [s[0]] + rest;
        forall i, j | 0 <= i < j < |r| ensures r[i].url != r[j].url {
          if i == 0 {
            assert r[j] == rest[j - 1] && r[j] in rest;
          } else {
            assert r[i] == rest[i - 1] && r[j] == rest[j - 1];
          }
        }
      }
    }
  }

  /** Every URL of the input that was not already seen survives, and nothing else. */
  lemma {:induction false} DedupUrls(s: seq<SearchResult>, seen: set<string>)
    ensures Urls(DedupFrom(s, seen)) == Urls(s) - seen
    decreases |s|
  {
    if s != [] {
      assert s == [s[0]] + s[1..];
      assert Urls(s) == {s[0].url} + Urls(s[1..]);
      if s[0].url in seen {
        DedupUrls(s[1..], seen);
      } else {
        DedupUrls(s[1..], seen + {s[0].url});
        var rest := DedupFrom(s[1..], seen + {s[0].url});
        assert Urls([s[0]] + rest) == {s[0].url} + Urls(rest);
      }
    }
  }

  /** The output keeps the input's relative order. */
  lemma {:induction false} DedupOrder(s: seq<SearchResult>, seen: set<string>)
    ensures IsSubsequence(DedupFrom(s, seen), s)
    decreases |s|
  {
    if s != [] {
      if s[0].url in seen {
        DedupOrder(s[1..], seen);
      } else {
        DedupOrder(s[1..], seen + {s[0].url});
        assert ([s[0]] + DedupFrom(s[1..], seen + {s[0].url}))[1..] == DedupFrom(s[1..], seen + {s[0].url});
      }
    }
  }

  /** First occurrence wins: the result kept for a URL is the earliest one carrying it. */
  lemma {:induction false} DedupKeepsFirst(s: seq<SearchResult>, seen: set<string>)
    ensures forall x :: x in DedupFrom(s, seen) ==> x.url in Urls(s) && x == FirstWithUrl(s, x.url)
    decreases |s|
  {
    if s != [] {
      DedupSound(s, seen);
      if s[0].url in seen {
        DedupKeepsFirst(s[1..], seen);
        DedupSound(s[1..], seen);
      } else {
        DedupKeepsFirst(s[1..], seen + {s[0].url});
        DedupSound(s[1..], seen + {s[0].url});
      }
    }
  }

  /** A URL present in the web results is found there first in the merged list. */
  lemma {:induction false} FirstWithUrlPrefers(web: seq<SearchResult>, wiki: seq<SearchResult>, u: string)
    requires u in Urls(web)
    ensures u in Urls(web + wiki) && FirstWithUrl(web + wiki, u) == FirstWithUrl(web, u)
    decreases |web|
  {
    assert (web + wiki)[0] == web[0];
    if web[0].url != u {
      assert u in Urls(web[1..]);
      assert (web + wiki)[1..] == web[1..] + wiki;
      FirstWithUrlPrefers(web[1..], wiki, u);
    }
  }

  /** Web beats Wikipedia: when both connectors return a URL, the aggregate keeps the
      web result (the first web result carrying it). */
  lemma WebResultWins(web: seq<SearchResult>, wiki: seq<SearchResult>)
    ensures forall x :: x in DedupFrom(web + wiki, {}) && x.url in Urls(web) ==> x == FirstWithUrl(web, x.url)
  {
    DedupKeepsFirst(web + wiki, {});
    forall x | x in DedupFrom(web + wiki, {}) && x.url in Urls(web) ensures x == FirstWithUrl(web, x.url) {
      FirstWithUrlPrefers(web, wiki, x.url);
    }
  }

  /** multiSourceSearch, once both connectors have answered: web results first,
      then Wikipedia, filtered through a growing `seen` set of URLs. */
  method MultiSourceSearch(brave: seq<SearchResult>, wiki: seq<SearchResult>) returns (deduped: seq<SearchResult>)
    ensures deduped == DedupFrom(brave + wiki, {})
    ensures DistinctUrls(deduped)
    ensures Urls(deduped) == Urls(brave + wiki)
    ensures IsSubsequence(deduped, brave + wiki)
    ensures brave == [] && wiki == [] ==> deduped == []
  {
    var all := brave + wiki;
    var seen: set<string> := {};
    deduped := [];
    var i := 0;
    while i < |all|
      invariant 0 <= i <= |all|
      invariant deduped + DedupFrom(all[i..], seen) == DedupFrom(all, {})
    {
      var r := all[i];
      assert all[i..][0] == r && all[i..][1..] == all[i + 1..];
      if r.url !in seen {
        seen := seen + {r.url};
        deduped := deduped + [r];
      }
      i := i + 1;
    }
    DedupDistinct(all, {});
    DedupUrls(all, {});
    DedupOrder(all, {});
  }

  // ---------------------------------------------------------------- source context

  const MAX_SOURCES := 5
  const MAX_CONTEXT_CHARS := 1200

  /** The prompt block for one result. */
  function Chunk(r: SearchResult): string {
    "Title: " + r.title + "\nDescription: " + r.description + "\nURL: " + r.url
  }

  /** The chunks taken from the front of `rs` while their running length stays
      within `budget`; the first chunk that does not fit ends the list. */
  function Admitted(rs: seq<SearchResult>, budget: nat): seq<string>
    decreases |rs|
  {
    if rs == [] then []
    else
      var n := CodeUnits(Chunk(rs[0]));
      if n > budget then [] else [Chunk(rs[0])] + Admitted(rs[1..], budget - n)
  }

  /** The chunks getTopSources joins: the admitted chunks of the first `maxSources` results. */
  function TopChunks(rs: seq<SearchResult>, maxSources: nat, maxChars: nat): seq<string> {
    Admitted(rs[..Min(maxSources, |rs|)], maxChars)
  }

  lemma {:induction false} AdmittedSpec(rs: seq<SearchResult>, budget: nat)
    ensures var c := Admitted(rs, budget);
      |c| <= |rs| &&
      (forall i :: 0 <= i < |c| ==> c[i] == Chunk(rs[i])) &&
      SumUnits(c) <= budget &&
      (|c| < |rs| ==> SumUnits(c) + CodeUnits(Chunk(rs[|c|])) > budget)
    decreases |rs|
  {
    if rs != [] {
      var n := CodeUnits(Chunk(rs[0]));
      if n <= budget {
        AdmittedSpec(rs[1..], budget - n);
        var c := Admitted(rs, budget);
        assert c[1..] == Admitted(rs[1..], budget - n);
      }
    }
  }

  /** The source context is built from a prefix of the results, at most
      `maxSources` long, whose chunk lengths sum to at most `maxChars`; the
      prefix ends at the first chunk that would overflow that budget, so a
      later, shorter chunk is never taken in its place. */
  lemma TopChunksSpec(rs: seq<SearchResult>, maxSources: nat, maxChars: nat)
    ensures var c := TopChunks(rs, maxSources, maxChars);
      |c| <= maxSources && |c| <= |rs| &&
      (forall i :: 0 <= i < |c| ==> c[i] == Chunk(rs[i])) &&
      SumUnits(c) <= maxChars &&
      (|c| < maxSources && |c| < |rs| ==> SumUnits(c) + CodeUnits(Chunk(rs[|c|])) > maxChars)
  {
    AdmittedSpec(rs[..Min(maxSources, |rs|)], maxChars);
  }

  /** The `\n\n` separators are not charged to the budget, so the joined context
      may exceed `maxChars` by up to two code units per separator. */
  lemma ContextLength(rs: seq<SearchResult>, maxSources: nat, maxChars: nat)
    requires TopChunks(rs, maxSources, maxChars) != []
    ensures CodeUnits(Join(TopChunks(rs, maxSources, maxChars), "\n\n")) <= maxChars + 2 * (maxSources - 1)
  {
    var c := TopChunks(rs, maxSources, maxChars);
    TopChunksSpec(rs, maxSources, maxChars);
    CodeUnitsJoin(c, "\n\n");
    assert CodeUnits("\n\n") == 2;
    assert (|c| - 1) * CodeUnits("\n\n") == 2 * (|c| - 1);
  }

  /** getTopSources: walk the first `maxSources` results, stop at the first chunk
      that would take the running total past `maxChars`, and join the chunks. */
  method GetTopSources(searchResults: seq<SearchResult>, maxSources: nat, maxChars: nat) returns (context: string)
    ensures context == Join(TopChunks(searchResults, maxSources, maxChars), "\n\n")
    ensures searchResults == [] ==> context == ""
  {
    var top := searchResults[..Min(maxSources, |searchResults|)];
    var total := 0;
    var chunks: seq<string> := [];
    var i := 0;
    while i < |top|
      invariant 0 <= i <= |top|
      invariant total <= maxChars
      invariant chunks + Admitted(top[i..], maxChars - total) == Admitted(top, maxChars)
    {
      var chunk := Chunk(top[i]);
      assert top[i..][0] == top[i] && top[i..][1..] == top[i + 1..];
      if total + CodeUnits(chunk) > maxChars {
        assert Admitted(top[i..], maxChars - total) == [];
        break;
      }
      chunks := chunks + [chunk];
      total := total + CodeUnits(chunk);
      i := i + 1;
    }
    assert i == |top| ==> top[i..] == [];
    assert chunks == Admitted(top, maxChars);
    context := Join(chunks, "\n\n");
  }
}

=== FILE: Wrappers.dfy ===
/** Option and Result: the absent values and thrown errors of the pipeline, as data. */
module Wrappers {

  /** A value that may be missing (`null`, `undefined` or an absent field). */
  datatype Option<+T> = None | Some(value: T)

  /** The outcome of a call that may throw or report an error instead of a value. */
  datatype Result<+T> = Ok(value: T) | Err(error: string)
}
